=== FILE: README.md ===
# Collaborative whiteboard: relay, room log and client session, in Dafny

This project models the core of a collaborative whiteboard. Browsers join a
room by its code, draw strokes, and see each other's strokes and cursors
live. A Socket.IO server relays the drawing events and appends finished
strokes and clears to a per-room command log kept in MongoDB. A client that
joins later replays that log.

The model is a set of pure functions over immutable data:

- `MemberList`: the JavaScript `Set` of connection ids kept per room. It is a
  sequence without duplicates in insertion order, because `Array.from(set)`
  follows insertion order.
- `RoomModel`: the room document (`server/models/Room.js`). It covers the
  drawing-command schema with its `type` enum, required fields and timestamp
  default; the room fields and their defaults; the unique room id; the
  pre-save hook that stamps `lastActivity`; the 24-hour TTL index; and the
  upserting `$push` that the relay uses to append a command.
- `RoomRoutes`: `POST /join` and `GET /:roomId` (`server/routes/rooms.js`),
  as functions from the store to a new store and a reply.
- `Relay`: the socket handlers (`server/socket/socketHandlers.js`) as one
  sequential state machine. `Step` takes the server state (room registry,
  each socket's `roomId` and `currentStroke`, and the store) and one inbound
  event. It returns the next state and the messages sent, each tagged with
  its audience: the sender only, the room without the sender, or the whole
  room.
- `RelayProperties`: runs of many events. It covers a whole stroke gesture,
  a disconnect in the middle of a stroke, the client's leave sequence, a room
  filling up, a connection that joins a second room, and a room's expiry
  under socket traffic.
- `Canvas`: the drawing canvas (`client/src/components/DrawingCanvas.jsx`).
  It covers the `load-drawing` replay, the live `clear-canvas` handler, and
  the pen that turns mouse events into `draw-start` / `draw-move` /
  `draw-end` emissions. The surface records the replayed history only: the
  strokes `load-drawing` paints after its last clear, emptied by a live
  clear.
- `Session`: the whiteboard page (`client/src/components/Whiteboard.jsx`).
  It covers the connection flag, the member list, the map of other users'
  cursors, the re-join on every connect and reconnect, the connected-socket
  guard on cursor reports, and the leave button.
- `RoomCode`: the lobby form (`client/src/components/RoomJoin.jsx`). It
  covers `generateRoomCode`, upper-casing while typing, and the blank check
  at submit.
- `Collaboration`: client and server together. What a drag on one canvas
  commits to the room's log, what a late joiner's canvas shows, what the
  leave button does to the registry, and the two-peer exchange of one stroke.

Behaviours of the code that the model keeps, each stated as a lemma or
contract:

- The relay appends strokes and clears with `findOneAndUpdate(..., {$push},
  {upsert: true})`, which does not run the `pre('save')` hook. So only
  `POST /join` refreshes `lastActivity` (`RoomModel.PushCommand`), and the
  client never calls that route. Drawing over the socket never postpones a
  room's 24-hour expiry (`RelayProperties.SocketActivityNeverDefersExpiry`).
- The handlers take `roomId` from each event's payload and never check that
  the sender is a member of that room.
- `draw-start` and `draw-move` are accepted at any time. `draw-start`
  replaces an open buffer, and `draw-move` with no buffer is still relayed.
- `join-room` never leaves a room joined before, and `disconnect` leaves only
  the room in `socket.roomId`, which is the most recently joined one. A
  connection that joined two rooms stays listed in the first
  (`RelayProperties.SecondJoinLeavesStaleMember`).
- `join-room` accepts the empty string as a room id, but `handleUserLeave`
  returns early on a falsy id. A connection joined to `""` is never removed
  from it (`RelayProperties.EmptyRoomIdIsNeverLeft`).
- Only the lobby form upper-cases room codes. The server takes any string as
  given.

## Model

| member | source | states |
|---|---|---|
| MemberList.Add | server/socket/socketHandlers.js:14-17 | Adding a connection to a room's set gives exactly the old members plus the newcomer, keeps the old members first in their order, grows by at most one, and never lists anyone twice |
| MemberList.Delete | server/socket/socketHandlers.js:140-141 | Deleting a connection leaves exactly the other members; an absent connection changes nothing; a set without duplicates shrinks by exactly one when the connection was in it, and the others keep their order, so the list is the old one with that one position cut out |
| RoomModel.CastCommand | server/models/Room.js:3-17 | A command document is accepted exactly when `type` is present and is "stroke" or "clear" and `data` is present; the accepted command keeps the given tag and data, and its timestamp is the given one or else now |
| RoomModel.CastRoundTrip | server/models/Room.js:4-8 | Every stored command carries one of the two enum tags, and re-casting its own fields returns it unchanged |
| RoomModel.StrokeCommand | server/socket/socketHandlers.js:76-80 | The command pushed for a finished stroke is what the schema casts `{type: 'stroke', data: stroke, timestamp: stroke.timestamp}` to, and it is well-formed exactly when the stroke has at least two points |
| RoomModel.ClearCommand | server/socket/socketHandlers.js:105-109 | The command pushed for a clear is what the schema casts `{type: 'clear', data: {type: 'clear'}, timestamp: now}` to, and it is well-formed |
| RoomModel.NewRoom | server/models/Room.js:25-32 | A new room document gets the given id and commands, with `createdAt` and `lastActivity` both defaulting to now |
| RoomModel.AtMostOneRoomPerId | server/models/Room.js:20-24 | With the unique index, two stored rooms that have the same id are the same room |
| RoomModel.Insert | server/models/Room.js:19-40 | Saving a new room fails with a duplicate-key error exactly when the id is already stored; otherwise it adds that one room with `lastActivity` stamped now by the pre-save hook and leaves every other room as it was |
| RoomModel.Resave | server/models/Room.js:36-40 | Re-saving a stored room stamps `lastActivity` with now, keeps the set of ids, and changes no other room |
| RoomModel.PushCommand | server/socket/socketHandlers.js:72-84 | The upserting push appends the command at the end of that room's log; an existing room keeps `createdAt` and `lastActivity`; a missing room is created holding the command with both times now; no other room changes and the store stays keyed by id |
| RoomModel.Evict | server/models/Room.js:42-43 | One TTL sweep deletes exactly the rooms whose `lastActivity` is more than 86400 seconds old and leaves the others untouched |
| RoomModel.SavedRoomLivesOneDay | server/models/Room.js:36-43 | A room saved at time t survives every sweep up to t + 86400 and no sweep after that |
| RoomRoutes.JoinRoom | server/routes/rooms.js:7-40 | A missing or empty id gets 400 "Room ID is required"; a database failure gets 500 "Failed to join room" and no change; otherwise the room is found or created, its commands are returned unchanged, `createdAt` is kept or set to now, `lastActivity` becomes now, and no other room changes |
| RoomRoutes.GetRoom | server/routes/rooms.js:43-66 | A database failure gets 500 "Failed to fetch room"; an unknown id gets 404 "Room not found"; a known id returns that room's fields as stored |
| RoomRoutes.RepeatedJoinSameRoom | server/routes/rooms.js:15-26 | Joining the same room twice returns the same reply both times; only `lastActivity` moves, to the second join's time |
| RoomRoutes.JoinThenGet | server/routes/rooms.js:43-61 | Right after a successful join, looking the room up finds it, with the join's creation time and commands and the join's time as `lastActivity` |
| Relay.Join | server/socket/socketHandlers.js:8-34 | `join-room` binds the socket to the room and appends it to the member list unless already there; other rooms and the store are untouched. When the database answers, the joiner alone gets the stored payloads exactly when the log is non-empty, and the whole room then gets the new member list; with an empty log that list is the only message. When it fails, only the joiner hears of it, but the membership change stays |
| Relay.Boot | server/socket/socketHandlers.js:3 | The server starts with no room listed and no socket state, over the database as it stands; a well-formed store gives a server that satisfies the registry and log invariant |
| Relay.Payloads | server/socket/socketHandlers.js:22 | The batch sent to a joiner has one entry per stored command, each that command's `data`, in log order |
| Relay.Step | server/socket/socketHandlers.js:5-132 | Dispatch of each inbound event to its handler above; it carries no contract of its own, and what every step keeps is stated by `Relay.StepFacts` |
| Relay.StartStroke | server/socket/socketHandlers.js:36-50 | `draw-start` relays point, colour and width to the rest of the room and opens a fresh one-point buffer stamped now, discarding any open one; nothing else changes |
| Relay.ExtendStroke | server/socket/socketHandlers.js:52-62 | `draw-move` is relayed to the rest of the room in every case; it appends the point to an open buffer and changes nothing when no buffer is open |
| Relay.EndStroke | server/socket/socketHandlers.js:64-91 | `draw-end` is relayed to the rest of the room; the buffer is pushed to the named room's log exactly when it exists, holds more than one point and the database answers; the buffer is emptied in every case; the log stays well-formed |
| Relay.Clear | server/socket/socketHandlers.js:93-117 | `clear-canvas` goes to every socket in the named room, which includes the sender only if it joined that room; a clear command is appended exactly when the database answers; registry and sockets are untouched |
| Relay.MoveCursor | server/socket/socketHandlers.js:119-122 | `cursor-move` changes no state and sends the sender's id and position to the rest of the room |
| Relay.Leave | server/socket/socketHandlers.js:134-153 | A falsy or unregistered room id does nothing. Otherwise the connection is removed from the room; an emptied room is dropped silently; a room with members left gets the remaining list and then `user-left`. Socket records and the store are untouched |
| Relay.Drop | server/socket/socketHandlers.js:128-131 | `disconnect` has the registry effect and the messages of leaving the socket's bound room, and then the socket record and its buffer are gone |
| Relay.StepFacts | server/socket/socketHandlers.js:5-132 | Every event keeps the registry well-formed (no empty room listed, no member twice) and the log well-formed (tags match payloads, strokes have two or more points); only `draw-end` and `clear-canvas` write to the store; `cursor-move` changes nothing; no event touches another socket's record |
| Relay.PushKeepsLogsOk | server/socket/socketHandlers.js:70-84 | Appending a well-formed command keeps every room's log well-formed and the store keyed by id |
| RelayProperties.RunKeepsInvariant | server/socket/socketHandlers.js:5-153 | Any sequence of events from any connections keeps the registry and the log well-formed |
| RelayProperties.MovesExtendBuffer | server/socket/socketHandlers.js:52-62 | With a buffer open, a run of `draw-move` events appends the points in order and echoes each one to the room; nothing else in the server changes |
| RelayProperties.GestureCommitsIffMoved | server/socket/socketHandlers.js:36-91 | A `draw-start`, n moves, `draw-end` gesture commits exactly one stroke, holding the start point and then the moves in order, if and only if n is at least one. The others see start, moves and end in order; the buffer ends empty; the registry and other rooms' logs are unchanged |
| RelayProperties.OnlyEndAndClearWrite | server/socket/socketHandlers.js:64-117 | A run with no `draw-end` and no `clear-canvas` leaves the store exactly as it was |
| RelayProperties.DisconnectMidStrokeCommitsNothing | server/socket/socketHandlers.js:128-131 | Disconnecting after `draw-start` and any number of moves commits nothing, removes the socket, and leaves the registry as leaving its bound room would |
| RelayProperties.LeaveThenDisconnect | server/socket/socketHandlers.js:124-131 | The client's `leave-room` followed by `disconnect` leaves the registry as one leave would, but a room with members left receives `room-users` and `user-left` twice |
| RelayProperties.JoinsFillRoom | server/socket/socketHandlers.js:14-27 | Distinct connections joining an unlisted room make its member list exactly those connections in join order; the last message is that list to the whole room; the store is untouched |
| RelayProperties.JoinAppendsNewcomer | server/socket/socketHandlers.js:14-27 | A join by a connection not yet in the room lists it last and announces the new list to the room |
| RelayProperties.SecondJoinLeavesStaleMember | server/socket/socketHandlers.js:8-17 | A connection that joins room a, then room b, then disconnects is still listed in a and no longer in b |
| RelayProperties.EmptyRoomIdIsNeverLeft | server/socket/socketHandlers.js:134-136 | A connection that joins the room `""`, leaves it and disconnects is gone as a socket but still listed in `""`, because the leave handler ignores a falsy id |
| RelayProperties.StepKeepsLastActivity | server/socket/socketHandlers.js:72-84 | No socket event deletes a stored room or changes its `lastActivity` |
| RelayProperties.SocketActivityNeverDefersExpiry | server/socket/socketHandlers.js:72-113 | A stored room whose `lastActivity` is more than a day old is removed by the next sweep, whatever strokes and clears were pushed to it over the socket |
| Canvas.Draw | client/src/components/DrawingCanvas.jsx:59-77 | A replayed command paints one stroke exactly when it is a stroke with a non-empty path, and nothing otherwise |
| Canvas.OnClearCanvas | client/src/components/DrawingCanvas.jsx:48-52 | The live `clear-canvas` handler leaves an empty surface |
| Canvas.LoadDrawing | client/src/components/DrawingCanvas.jsx:54-79 | Whatever the surface held before, `load-drawing` shows exactly the drawable strokes after the batch's last clear, in batch order |
| Canvas.ReplayAfterLastClear | client/src/components/DrawingCanvas.jsx:59-78 | Folding the batch onto an empty surface equals painting only the strokes after the last clear |
| Canvas.VisibleKeepsEveryDrawableStroke | client/src/components/DrawingCanvas.jsx:62-77 | A clear-free batch of non-empty strokes is painted stroke for stroke, in order and with their colours and widths |
| Canvas.LoadDrawingIdempotent | client/src/components/DrawingCanvas.jsx:54-57 | Receiving the same batch twice shows what receiving it once shows |
| Canvas.LiveClearMatchesReplay | client/src/components/DrawingCanvas.jsx:48-61 | A live clear leaves the surface as a late joiner sees it when replaying a log that ends with that clear |
| Canvas.PenStep | client/src/components/DrawingCanvas.jsx:99-171 | Mouse down starts a one-point path and emits `draw-start` with the current settings; a move always reports the cursor and, while drawing, extends the path and emits `draw-move`; up or leave stop drawing and emit `draw-end` only if drawing; with no socket only cursor reports come out |
| Canvas.PenEmitsBracketed | client/src/components/DrawingCanvas.jsx:144-153 | Whatever the mouse does, no `draw-move` or `draw-end` is emitted outside a gesture, and a gesture is open at the end exactly when the pen is drawing |
| Canvas.UpThenLeaveEndsOnce | client/src/components/DrawingCanvas.jsx:168-171 | Mouse up followed by mouse leave emits a single `draw-end` |
| Collaboration.DrawingMovesReachServer | client/src/components/DrawingCanvas.jsx:124-162 | While drawing, each mouse move extends the pen's path by its point and reaches the server as one `draw-move` with that point |
| Collaboration.DragReachesServerAsGesture | client/src/components/DrawingCanvas.jsx:99-153 | A drag reaches the server as one gesture: `draw-start` with the canvas's colour and width, one `draw-move` per further point, then `draw-end`; just before release the pen's path is the start followed by the points |
| Collaboration.DragCommitsWhatWasDrawn | server/socket/socketHandlers.js:64-91 | A drag with at least one move appends one stroke whose path is exactly the pen's path, in the canvas's colour and width; a bare click appends nothing |
| Collaboration.LateJoinerSeesStrokesAfterLastClear | server/socket/socketHandlers.js:19-23 | A late joiner of a room with history gets the log as its first message, and replaying it shows every stroke after the last clear, in log order, with none skipped |
| Collaboration.ReplayOfWellFormedLog | client/src/components/DrawingCanvas.jsx:54-79 | Replaying a well-formed log shows each command after the last clear as its stroke, one for one |
| Collaboration.TwoPeersOneStroke | server/socket/socketHandlers.js:8-91 | Two connections join an empty room and the first draws from one point to another: the member list is both in join order, the log holds exactly that two-point stroke, and the last three messages are start, move and end to the room except the drawer |
| Collaboration.LeaveButtonLeavesRoom | client/src/components/Whiteboard.jsx:156-162 | The leave button's `leave-room` and close reach the server as a leave and a disconnect: the socket is gone, it is no longer listed in its room unless that room is `""`, no other room changes, the registry ends as one leave leaves it, and the remaining members hear of it twice |
| Session.OnSocketEvent | client/src/components/Whiteboard.jsx:30-71 | Connect and reconnect mark the page connected and send one `join-room`; disconnect and connection errors mark it disconnected; `room-users` replaces the member list and so the online count; `cursor-move` sets one user's cursor; `user-left` removes one; every other cursor is unchanged |
| Session.OnLocalCursor | client/src/components/Whiteboard.jsx:164-168 | A local cursor position is sent if and only if there is a socket and the page is connected |
| Session.OnLeaveRoom | client/src/components/Whiteboard.jsx:156-162 | Leaving sends `leave-room` and closes the socket when there is one, and always returns to the lobby last |
| Session.ConnectedFollowsLastStatus | client/src/components/Whiteboard.jsx:30-71 | After any sequence of socket events the page's connected flag is the latest status: up after connect or reconnect, down after disconnect or a connection error |
| Session.CursorSentIffLastStatusUp | client/src/components/Whiteboard.jsx:164-168 | After any sequence of socket events, a local cursor position is sent exactly when there is a socket and the latest status is up |
| Session.CursorsFollowLastReport | client/src/components/Whiteboard.jsx:45-58 | After any sequence of socket events, each user's cursor is the position of their latest `cursor-move`, absent if a `user-left` for them came later |
| Session.JoinOnEveryConnect | client/src/components/Whiteboard.jsx:30-71 | Over any sequence of socket events the page sends exactly one `join-room` for its room per connect or reconnect, and nothing else |
| RoomCode.SpellDraws | client/src/components/RoomJoin.jsx:10-13 | The `charAt` loop yields only characters of the set; when every draw indexes into the set, it yields one character per draw, in order |
| RoomCode.GenerateRoomCode | client/src/components/RoomJoin.jsx:8-15 | A generated code has at most six characters, all capital letters or digits; with in-range draws it has exactly six, the alphabet's characters at the drawn indices |
| RoomCode.TrimEmptyIffBlank | client/src/components/RoomJoin.jsx:19 | A code trims to the empty string exactly when every character of it is JavaScript whitespace |
| RoomCode.ToUpperIdempotent | client/src/components/RoomJoin.jsx:57 | Upper-casing twice is upper-casing once, so a code normalised while typed is unchanged at submit |
| RoomCode.OnInputChange | client/src/components/RoomJoin.jsx:57 | The stored code is the typed text with each character upper-cased, so it has the typed length and is already upper case |
| RoomCode.HandleJoinRoom | client/src/components/RoomJoin.jsx:17-27 | Submitting joins nothing exactly when the code is blank; otherwise it joins the code with each character upper-cased and nothing trimmed, so it has the same length and keeps its whitespace where it was |
| RoomCode.AlphabetCodeJoinsAsIs | client/src/components/RoomJoin.jsx:8-27 | A non-empty code made of the generator's alphabet passes through typing and submitting unchanged |

## Left out

- Transport and delivery: Socket.IO rooms, `socket.join` / `socket.leave`, and
  the fan-out to sockets are not modelled. Outbound messages carry an audience
  tag (sender, room except sender, whole room) instead of a list of recipients.
  Socket.IO's automatic room exit on disconnect is outside the model.
- Concurrency: each handler runs to completion before the next event. Handlers
  that `await` the database could interleave, and the model does not cover
  that.
- The database is a map from room id to room. A failed query or write is an
  input flag (`storageUp`) per event or request. The `upsert` insert is
  assumed to apply the schema defaults. The TTL monitor is one sweep function
  (`RoomModel.Evict`), with no timing of when MongoDB runs it.
- Time (`new Date()`, `Date.now`) is an integer parameter in seconds.
  `Math.random()` in `generateRoomCode` becomes the list of drawn indices.
- Relay.Join: the `error` event's text "Failed to join room" is reduced to
  one `JoinFailedOut` message.
- Relay.StartStroke: the stroke's `type: 'stroke'` field is implied by the
  payload's variant, not stored as a string.
- RoomRoutes.JoinRoom: the body's `roomId` is either absent or a string. A
  number or an object is not modelled. Mongoose would read an object such as
  `{"$ne": null}` as a query operator.
- Relay.Join, Relay.StartStroke, Relay.ExtendStroke, Relay.EndStroke,
  Relay.Clear, Relay.MoveCursor: each event carries a payload of the expected
  shape. The handlers destructure their payload outside any `try`, so a
  missing or malformed payload makes the handler throw. That path is not
  modelled. `join-room` with a non-string room id is not modelled either.
- Relay.Leave: `leave-room` with a non-string payload (such as `undefined`)
  is not modelled; the event always carries a string.
- Canvas: pixels, colours as rendered, line caps, canvas resizing and
  coordinate conversion are out. The surface records only the strokes that
  `load-drawing` replays, and the live clear. Live painting is not recorded on
  it. This covers the local pen's own segments and peers' live `draw-start` /
  `draw-move` segments. The no-op `draw-end` listener is left out too. Which
  strokes reach the log is stated on the server side instead.
- Collaboration.DragReachesServerAsGesture, Collaboration.DragCommitsWhatWasDrawn:
  the server trace holds the drawing events only. The page also forwards each
  move's cursor report as `cursor-move` while connected, interleaved with
  them. A `cursor-move` changes no server state (`Relay.MoveCursor`), but
  that interleaving is not proved.
- Canvas.PenStep: mouse positions are taken as already converted to canvas
  coordinates (`getMousePos`).
- RoomCode.OnInputChange: `toUpperCase` is modelled for the ASCII letters
  only, not for the rest of Unicode case mapping. The input's `maxLength={8}`
  limit is not modelled.
- RoomCode.HandleJoinRoom: upper-cases the ASCII letters only, as
  `RoomCode.OnInputChange` does. JavaScript's `toUpperCase` maps some
  characters to longer strings (`"ß"` to `"SS"`), so "same length" holds for
  the model, not for every input of the page.
- RoomCode.HandleJoinRoom: the `isJoining` flag, the disabled submit button
  and the 500 ms `setTimeout` before calling back are not modelled. The
  callback happens at once.
- Session.OnSocketEvent: console logging and the socket's own reconnection
  policy are out. Reconnection arrives as an event. The model treats
  `reconnect` as an event the page may receive, whether or not the
  socket.io-client version in use emits it on the socket. In the v3+ API the
  manager emits it, so re-joining may in practice happen only through
  `connect`.
- The toolbar, the cursor overlay, the app shell, the HTTP server bootstrap,
  and touch, scroll, resize and keyboard handling on the whiteboard page are
  not part of this model.

=== FILE: canvas.dfy ===
/**
 * The drawing canvas on the client: the `load-drawing` replay, the live
 * `clear-canvas` handler, and the pen (mouse down, move, up, leave) that
 * emits the drawing events. The surface records the replayed history only:
 * the strokes `load-drawing` paints after its last clear, emptied by a live
 * clear. Live painting by the local pen and by peers is not recorded on it.
 */
module Canvas {
  import opened Wrappers
  import opened RoomModel

  /** A stroke as painted on the surface. */
  datatype Drawn = Drawn(path: seq<Point>, color: string, strokeWidth: int)

  type Surface = seq<Drawn>

  /** What one replayed stroke adds to the surface: nothing for an empty path. */
  function Draw(p: Payload): (r: Surface)
    ensures |r| <= 1
    ensures |r| == 1 <==> p.StrokePayload? && |p.stroke.path| > 0
    ensures |r| == 1 ==> r[0] == Drawn(p.stroke.path, p.stroke.color, p.stroke.strokeWidth)
  {
    match p
    case ClearPayload => []
    case StrokePayload(st) => if |st.path| > 0 then [Drawn(st.path, st.color, st.strokeWidth)] else []
  }

  /** One element of the replay loop: a clear wipes the surface, a stroke paints over it. */
  function Paint(surface: Surface, p: Payload): Surface {
    if p.ClearPayload? then [] else surface + Draw(p)
  }

  /** `drawingData.forEach(...)` over a surface. */
  function ReplayOnto(surface: Surface, cmds: seq<Payload>): Surface
    decreases |cmds|
  {
    if |cmds| == 0 then surface
    else Paint(ReplayOnto(surface, cmds[..|cmds| - 1]), cmds[|cmds| - 1])
  }

  /**
   * The `load-drawing` handler: clear the surface, then replay the batch.
   * Whatever the surface held before, it then shows exactly the strokes after
   * the batch's last clear that have a non-empty path, in batch order.
   */
  function LoadDrawing(surface: Surface, cmds: seq<Payload>): (r: Surface)
    ensures r == Visible(cmds[LastClearEnd(cmds)..])
  {
    ReplayAfterLastClear(cmds);
    ReplayOnto([], cmds)
  }

  /** The live `clear-canvas` handler. */
  function OnClearCanvas(surface: Surface): (r: Surface)
    ensures |r| == 0
  {
    []
  }

  /** The position just after the last clear in the batch, or 0 when there is none. */
  function LastClearEnd(cmds: seq<Payload>): (k: nat)
    ensures k <= |cmds|
    ensures k > 0 ==> cmds[k - 1].ClearPayload?
    ensures forall i :: k <= i < |cmds| ==> cmds[i].StrokePayload?
    decreases |cmds|
  {
    if |cmds| == 0 then 0
    else if cmds[|cmds| - 1].ClearPayload? then |cmds|
    else LastClearEnd(cmds[..|cmds| - 1])
  }

  /** The strokes of a clear-free batch with a non-empty path, in batch order. */
  function Visible(cmds: seq<Payload>): Surface
    decreases |cmds|
  {
    if |cmds| == 0 then [] else Visible(cmds[..|cmds| - 1]) + Draw(cmds[|cmds| - 1])
  }

  /** Folding a batch onto an empty surface paints only the strokes after its last clear. */
  lemma {:induction false} ReplayAfterLastClear(cmds: seq<Payload>)
    ensures ReplayOnto([], cmds) == Visible(cmds[LastClearEnd(cmds)..])
    decreases |cmds|
  {
    if |cmds| == 0 {
    } else {
      var n := |cmds|;
      var init := cmds[..n - 1];
      if cmds[n - 1].ClearPayload? {
        assert cmds[n..] == [];
      } else {
        ReplayAfterLastClear(init);
        var k := LastClearEnd(cmds);
        assert k == LastClearEnd(init);
        assert cmds[k..][..|cmds[k..]| - 1] == init[k..];
        assert cmds[k..][|cmds[k..]| - 1] == cmds[n - 1];
      }
    }
  }

  /** A clear-free, non-empty-path batch is painted stroke for stroke. */
  lemma {:induction false} VisibleKeepsEveryDrawableStroke(cmds: seq<Payload>)
    requires forall i :: 0 <= i < |cmds| ==> cmds[i].StrokePayload? && |cmds[i].stroke.path| > 0
    ensures |Visible(cmds)| == |cmds|
    ensures forall i :: 0 <= i < |cmds| ==>
      Visible(cmds)[i] == Drawn(cmds[i].stroke.path, cmds[i].stroke.color, cmds[i].stroke.strokeWidth)
    decreases |cmds|
  {
    if |cmds| > 0 {
      VisibleKeepsEveryDrawableStroke(cmds[..|cmds| - 1]);
    }
  }

  /** Replaying the same batch twice is replaying it once. */
  lemma LoadDrawingIdempotent(surface: Surface, cmds: seq<Payload>)
    ensures LoadDrawing(LoadDrawing(surface, cmds), cmds) == LoadDrawing(surface, cmds)
  {
  }

  /** A live clear leaves the surface as a late joiner replaying the log that ends with that clear sees it. */
  lemma {:induction false} LiveClearMatchesReplay(surface: Surface, log: seq<Payload>)
    ensures OnClearCanvas(surface) == LoadDrawing(surface, log + [ClearPayload])
  {
    assert (log + [ClearPayload])[..|log|] == log;
  }

  /** Whether the user is drawing, and the points of the current gesture. */
  datatype Pen = Idle | Drawing(path: seq<Point>)

  datatype Settings = Settings(color: string, strokeWidth: int)

  datatype Mouse = MouseDown(pos: Point) | MouseMove(pos: Point) | MouseUp | MouseLeave

  /** What the canvas emits to the socket, plus the cursor report it hands to its parent on every move. */
  datatype Emit =
    | EmitDrawStart(roomId: RoomId, at: Point, color: string, strokeWidth: int)
    | EmitDrawMove(roomId: RoomId, at: Point)
    | EmitDrawEnd(roomId: RoomId)
    | CursorReport(pos: Point)

  datatype PenOutcome = PenOutcome(pen: Pen, emitted: seq<Emit>)

  /**
   * The mouse handlers: down is `startDrawing`; move reports the cursor and
   * then runs `draw` while drawing; up and leave are `stopDrawing`. Socket
   * emits happen only when a socket exists.
   */
  function PenStep(pen: Pen, settings: Settings, roomId: RoomId, hasSocket: bool, m: Mouse): (r: PenOutcome)
    ensures m.MouseDown? ==> r.pen == Drawing([m.pos])
    ensures m.MouseDown? && hasSocket ==> r.emitted == [EmitDrawStart(roomId, m.pos, settings.color, settings.strokeWidth)]
    ensures m.MouseMove? ==> |r.emitted| > 0 && r.emitted[0] == CursorReport(m.pos)
    ensures m.MouseMove? && pen.Drawing? ==> r.pen == Drawing(pen.path + [m.pos])
    ensures m.MouseMove? && pen.Drawing? && hasSocket ==> r.emitted == [CursorReport(m.pos), EmitDrawMove(roomId, m.pos)]
    ensures m.MouseMove? && (pen.Idle? || !hasSocket) ==> r.emitted == [CursorReport(m.pos)]
    ensures (m.MouseUp? || m.MouseLeave?) ==> r.pen == Idle
    ensures (exists e :: e in r.emitted && e.EmitDrawMove?) ==> pen.Drawing? && hasSocket
    ensures (exists e :: e in r.emitted && e.EmitDrawEnd?) ==> pen.Drawing? && hasSocket
    ensures hasSocket && pen.Drawing? && (m.MouseUp? || m.MouseLeave?) ==> r.emitted == [EmitDrawEnd(roomId)]
    ensures !hasSocket ==> forall e :: e in r.emitted ==> e.CursorReport?
    ensures pen.Idle? && !m.MouseDown? ==> r.pen == Idle
    ensures (m.MouseUp? || m.MouseLeave?) && (pen.Idle? || !hasSocket) ==> r.emitted == []
    ensures m.MouseDown? && !hasSocket ==> r.emitted == []
  {
    match m
    case MouseDown(pos) =>
      PenOutcome(Drawing([pos]), if hasSocket then [EmitDrawStart(roomId, pos, settings.color, settings.strokeWidth)] else [])
    case MouseMove(pos) =>
      if pen.Idle? then PenOutcome(pen, [CursorReport(pos)])
      else PenOutcome(Drawing(pen.path + [pos]), [CursorReport(pos)] + (if hasSocket then [EmitDrawMove(roomId, pos)] else []))
    case MouseUp => StopDrawing(pen, roomId, hasSocket)
    case MouseLeave => StopDrawing(pen, roomId, hasSocket)
  }

  /** `stopDrawing`, shared by mouse up and mouse leave: does nothing unless drawing. */
  function StopDrawing(pen: Pen, roomId: RoomId, hasSocket: bool): PenOutcome {
    if pen.Idle? then PenOutcome(Idle, [])
    else PenOutcome(Idle, if hasSocket then [EmitDrawEnd(roomId)] else [])
  }

  /** Feeds the mouse events to the pen in order, collecting the emissions. */
  function PenRun(pen: Pen, settings: Settings, roomId: RoomId, hasSocket: bool, ms: seq<Mouse>): PenOutcome
    decreases |ms|
  {
    if |ms| == 0 then PenOutcome(pen, [])
    else
      var first := PenStep(pen, settings, roomId, hasSocket, ms[0]);
      var rest := PenRun(first.pen, settings, roomId, hasSocket, ms[1..]);
      PenOutcome(rest.pen, first.emitted + rest.emitted)
  }

  /**
   * Scans an emission stream from the given state (a gesture open or not):
   * `None` when a move or an end arrives with no gesture open, otherwise
   * whether a gesture is open at the end.
   */
  function Bracket(open: bool, es: seq<Emit>): Option<bool>
    decreases |es|
  {
    if |es| == 0 then Some(open)
    else
      match es[0]
      case EmitDrawStart(_, _, _, _) => Bracket(true, es[1..])
      case EmitDrawMove(_, _) => if open then Bracket(true, es[1..]) else None
      case EmitDrawEnd(_) => if open then Bracket(false, es[1..]) else None
      case CursorReport(_) => Bracket(open, es[1..])
  }

  lemma {:induction false} BracketAppend(open: bool, a: seq<Emit>, b: seq<Emit>)
    ensures Bracket(open, a + b) == (if Bracket(open, a).None? then None else Bracket(Bracket(open, a).value, b))
    decreases |a|
  {
    if |a| > 0 {
      assert (a + b)[0] == a[0];
      assert (a + b)[1..] == a[1..] + b;
      match a[0]
      case EmitDrawStart(_, _, _, _) => BracketAppend(true, a[1..], b);
      case EmitDrawMove(_, _) => if open { BracketAppend(true, a[1..], b); }
      case EmitDrawEnd(_) => if open { BracketAppend(false, a[1..], b); }
      case CursorReport(_) => BracketAppend(open, a[1..], b);
    } else {
      assert a + b == b;
    }
  }

  /**
   * Whatever the mouse does, the emitted stream never carries a move or an
   * end outside a gesture, and a gesture is open at the end exactly when the
   * pen is drawing. So mouse up followed by mouse leave ends a gesture once.
   */
  lemma {:induction false} PenEmitsBracketed(pen: Pen, settings: Settings, roomId: RoomId, ms: seq<Mouse>)
    ensures
      var o := PenRun(pen, settings, roomId, true, ms);
      Bracket(pen.Drawing?, o.emitted) == Some(o.pen.Drawing?)
    decreases |ms|
  {
    if |ms| > 0 {
      var first := PenStep(pen, settings, roomId, true, ms[0]);
      PenEmitsBracketed(first.pen, settings, roomId, ms[1..]);
      var rest := PenRun(first.pen, settings, roomId, true, ms[1..]);
      BracketAppend(pen.Drawing?, first.emitted, rest.emitted);
      match ms[0]
      case MouseDown(p) =>
        assert Bracket(pen.Drawing?, first.emitted) == Some(true);
      case MouseMove(p) =>
        if pen.Drawing? {
          assert first.emitted == [CursorReport(p), EmitDrawMove(roomId, p)];
          assert first.emitted[1..] == [EmitDrawMove(roomId, p)];
          assert first.emitted[1..][1..] == [];
        } else {
          assert first.emitted == [CursorReport(p)];
          assert first.emitted[1..] == [];
        }
      case MouseUp =>
        if pen.Drawing? { assert first.emitted[1..] == []; }
      case MouseLeave =>
        if pen.Drawing? { assert first.emitted[1..] == []; }
    }
  }

  /** Releasing the button and then leaving the canvas emits a single `draw-end`. */
  lemma UpThenLeaveEndsOnce(path: seq<Point>, settings: Settings, roomId: RoomId)
    ensures PenRun(Drawing(path), settings, roomId, true, [MouseUp, MouseLeave]) == PenOutcome(Idle, [EmitDrawEnd(roomId)])
  {
    assert [MouseUp, MouseLeave][1..] == [MouseLeave];
    assert [MouseLeave][1..] == [];
  }
}

=== FILE: collaboration.dfy ===
/**
 * Client and server together: what a drag on one canvas commits to the
 * room's log, what a late joiner's canvas shows after replay, what the leave
 * button does to the registry, and the two-peer exchange of a single stroke.
 */
module Collaboration {
  import opened Wrappers
  import opened MemberList
  import opened RoomModel
  import opened Relay
  import opened RelayProperties
  import opened Canvas
  import opened Session

  /**
   * The socket events the canvas's drawing emissions arrive as. Cursor
   * reports are dropped here: the page forwards them as `cursor-move` while
   * connected, interleaved with the drawing events, and the drag lemmas below
   * are stated for the drawing events alone. A `cursor-move` changes no server
   * state (`Relay.MoveCursor`), but that interleaving is not proved here.
   */
  function ToServer(c: ConnId, es: seq<Emit>, now: Time): seq<Input>
    decreases |es|
  {
    if |es| == 0 then []
    else
      var head :=
        match es[0]
        case EmitDrawStart(r, at, color, w) => [Input(c, DrawStart(r, at, color, w), now, true)]
        case EmitDrawMove(r, at) => [Input(c, DrawMove(r, at), now, true)]
        case EmitDrawEnd(r) => [Input(c, DrawEnd(r), now, true)]
        case CursorReport(_) => [];
      head + ToServer(c, es[1..], now)
  }

  lemma {:induction false} ToServerAppend(c: ConnId, a: seq<Emit>, b: seq<Emit>, now: Time)
    ensures ToServer(c, a + b, now) == ToServer(c, a, now) + ToServer(c, b, now)
    decreases |a|
  {
    if |a| == 0 {
      assert a + b == b;
    } else {
      assert (a + b)[0] == a[0];
      assert (a + b)[1..] == a[1..] + b;
      ToServerAppend(c, a[1..], b, now);
    }
  }

  lemma {:induction false} PenRunAppend(pen: Pen, settings: Settings, roomId: RoomId, hasSocket: bool, a: seq<Mouse>, b: seq<Mouse>)
    ensures
      var first := PenRun(pen, settings, roomId, hasSocket, a);
      var second := PenRun(first.pen, settings, roomId, hasSocket, b);
      PenRun(pen, settings, roomId, hasSocket, a + b) == PenOutcome(second.pen, first.emitted + second.emitted)
    decreases |a|
  {
    if |a| == 0 {
      assert a + b == b;
    } else {
      assert (a + b)[0] == a[0];
      assert (a + b)[1..] == a[1..] + b;
      var first := PenStep(pen, settings, roomId, hasSocket, a[0]);
      PenRunAppend(first.pen, settings, roomId, hasSocket, a[1..], b);
      var r1 := PenRun(first.pen, settings, roomId, hasSocket, a[1..]);
      var r2 := PenRun(r1.pen, settings, roomId, hasSocket, b);
      assert PenRun(pen, settings, roomId, hasSocket, a) == PenOutcome(r1.pen, first.emitted + r1.emitted);
      assert PenRun(pen, settings, roomId, hasSocket, a + b) == PenOutcome(r2.pen, first.emitted + (r1.emitted + r2.emitted));
      assert first.emitted + (r1.emitted + r2.emitted) == (first.emitted + r1.emitted) + r2.emitted;
    }
  }

  /** Mouse moves over the canvas, one per point. */
  function MouseMoves(points: seq<Point>): (r: seq<Mouse>)
    ensures |r| == |points|
    decreases |points|
  {
    if |points| == 0 then [] else [MouseMove(points[0])] + MouseMoves(points[1..])
  }

  /** While drawing, each mouse move extends the pen's path and reaches the server as one `draw-move`. */
  lemma {:induction false} DrawingMovesReachServer(path: seq<Point>, settings: Settings, roomId: RoomId, points: seq<Point>, c: ConnId, now: Time)
    ensures
      var o := PenRun(Drawing(path), settings, roomId, true, MouseMoves(points));
      && o.pen == Drawing(path + points)
      && ToServer(c, o.emitted, now) == Moves(c, roomId, points, now)
    decreases |points|
  {
    var ms := MouseMoves(points);
    if |points| == 0 {
      assert path + points == path;
    } else {
      var p := points[0];
      var first := PenStep(Drawing(path), settings, roomId, true, ms[0]);
      assert first == PenOutcome(Drawing(path + [p]), [CursorReport(p), EmitDrawMove(roomId, p)]);
      assert ms[1..] == MouseMoves(points[1..]);
      DrawingMovesReachServer(path + [p], settings, roomId, points[1..], c, now);
      assert path + [p] + points[1..] == path + points;
      var rest := PenRun(first.pen, settings, roomId, true, ms[1..]);
      ToServerAppend(c, first.emitted, rest.emitted, now);
      assert first.emitted[1..] == [EmitDrawMove(roomId, p)];
      assert first.emitted[1..][1..] == [];
      assert ToServer(c, first.emitted, now) == [Input(c, DrawMove(roomId, p), now, true)];
      assert Moves(c, roomId, points, now) == [Input(c, DrawMove(roomId, p), now, true)] + Moves(c, roomId, points[1..], now);
    }
  }

  /** A drag: press at one point, move through the others, release. */
  function Drag(start: Point, points: seq<Point>): seq<Mouse> {
    [MouseDown(start)] + MouseMoves(points) + [MouseUp]
  }

  /**
   * A drag on a connected canvas reaches the server as exactly one gesture:
   * `draw-start` with the current colour and width, one `draw-move` per
   * further point, `draw-end`. Just before release the pen's path is the
   * start followed by the points.
   */
  lemma {:induction false} DragReachesServerAsGesture(pen: Pen, settings: Settings, roomId: RoomId, start: Point, points: seq<Point>, c: ConnId, now: Time)
    ensures PenRun(pen, settings, roomId, true, [MouseDown(start)] + MouseMoves(points)).pen == Drawing([start] + points)
    ensures PenRun(pen, settings, roomId, true, Drag(start, points)).pen == Idle
    ensures ToServer(c, PenRun(pen, settings, roomId, true, Drag(start, points)).emitted, now)
         == Gesture(c, roomId, start, settings.color, settings.strokeWidth, points, now, now)
  {
    var down := [MouseDown(start)];
    var moves := MouseMoves(points);
    var up := [MouseUp];
    PenRunAppend(pen, settings, roomId, true, down + moves, up);
    PenRunAppend(pen, settings, roomId, true, down, moves);
    assert down[1..] == [];
    var d := PenRun(pen, settings, roomId, true, down);
    assert d == PenOutcome(Drawing([start]), [EmitDrawStart(roomId, start, settings.color, settings.strokeWidth)]);
    DrawingMovesReachServer([start], settings, roomId, points, c, now);
    var m := PenRun(d.pen, settings, roomId, true, moves);
    assert up[1..] == [];
    var u := PenRun(m.pen, settings, roomId, true, up);
    assert u == PenOutcome(Idle, [EmitDrawEnd(roomId)]);
    ToServerAppend(c, d.emitted + m.emitted, u.emitted, now);
    ToServerAppend(c, d.emitted, m.emitted, now);
    assert d.emitted[1..] == [];
    assert u.emitted[1..] == [];
    assert Drag(start, points) == down + moves + up;
  }

  /**
   * What the user drew is what the room keeps: a drag with at least one move
   * appends one stroke whose path is the pen's path, in the canvas's colour
   * and width; a bare click appends nothing.
   */
  lemma DragCommitsWhatWasDrawn(s: Server, c: ConnId, pen: Pen, settings: Settings, roomId: RoomId, start: Point, points: seq<Point>, now: Time)
    ensures
      var drawn := PenRun(pen, settings, roomId, true, [MouseDown(start)] + MouseMoves(points)).pen;
      var o := Run(s, ToServer(c, PenRun(pen, settings, roomId, true, Drag(start, points)).emitted, now));
      && drawn.Drawing?
      && (|points| > 0 ==> LogOf(o.state.store, roomId) == LogOf(s.store, roomId) + [StrokeCommand(Stroke(drawn.path, settings.color, settings.strokeWidth, now))])
      && (|points| == 0 ==> o.state.store == s.store)
  {
    DragReachesServerAsGesture(pen, settings, roomId, start, points, c, now);
    GestureCommitsIffMoved(s, c, roomId, start, settings.color, settings.strokeWidth, points, now, now);
  }

  /**
   * A late joiner of a room with history receives the log as one batch, and
   * replaying it shows every stroke after the last clear, in log order:
   * none is skipped, since only strokes of two or more points are stored.
   */
  lemma LateJoinerSeesStrokesAfterLastClear(s: Server, c: ConnId, roomId: RoomId, surface: Surface)
    requires StoreOk(s.store)
    requires |LogOf(s.store, roomId)| > 0
    ensures
      var log := LogOf(s.store, roomId);
      var o := Join(s, c, roomId, true);
      var k := LastClearEnd(Payloads(log));
      var shown := Canvas.LoadDrawing(surface, Payloads(log));
      && o.sent[0] == Outbound(ToSender, LoadDrawingOut(Payloads(log)))
      && |shown| == |log| - k
      && forall i :: 0 <= i < |shown| ==>
           log[k + i].data.StrokePayload?
           && shown[i] == Drawn(log[k + i].data.stroke.path, log[k + i].data.stroke.color, log[k + i].data.stroke.strokeWidth)
  {
    var log := LogOf(s.store, roomId);
    var o := Join(s, c, roomId, true);
    assert o.sent[0] == Outbound(ToSender, LoadDrawingOut(Payloads(log))) by {
      assert |o.sent| == 2;
    }
    assert LogOk(log) by {
      assert roomId in s.store;
    }
    ReplayOfWellFormedLog(log, surface);
  }

  /** Replaying a well-formed log shows each of its strokes after the last clear, in order. */
  lemma ReplayOfWellFormedLog(log: seq<Command>, surface: Surface)
    requires LogOk(log)
    ensures
      var k := LastClearEnd(Payloads(log));
      var shown := Canvas.LoadDrawing(surface, Payloads(log));
      && |shown| == |log| - k
      && forall i :: 0 <= i < |shown| ==>
           log[k + i].data.StrokePayload?
           && shown[i] == Drawn(log[k + i].data.stroke.path, log[k + i].data.stroke.color, log[k + i].data.stroke.strokeWidth)
  {
    var p := Payloads(log);
    var k := LastClearEnd(p);
    TailIsDrawable(log, k);
    VisibleOfSuffix(p, k);
    var shown := Canvas.LoadDrawing(surface, p);
    forall i | 0 <= i < |shown|
      ensures log[k + i].data.StrokePayload?
      ensures shown[i] == Drawn(log[k + i].data.stroke.path, log[k + i].data.stroke.color, log[k + i].data.stroke.strokeWidth)
    {
      assert p[k + i] == log[k + i].data;
    }
  }

  /** A drawable suffix of a batch is painted stroke for stroke, indexed from the suffix's start. */
  lemma VisibleOfSuffix(cmds: seq<Payload>, k: nat)
    requires k <= |cmds|
    requires forall i :: 0 <= i < |cmds[k..]| ==> cmds[k..][i].StrokePayload? && |cmds[k..][i].stroke.path| > 0
    ensures |Visible(cmds[k..])| == |cmds| - k
    ensures forall i :: 0 <= i < |cmds| - k ==>
      Visible(cmds[k..])[i] == Drawn(cmds[k + i].stroke.path, cmds[k + i].stroke.color, cmds[k + i].stroke.strokeWidth)
  {
    VisibleKeepsEveryDrawableStroke(cmds[k..]);
  }

  /** In a well-formed log, every command from position `k` on that is not a clear is a stroke with a non-empty path. */
  lemma TailIsDrawable(log: seq<Command>, k: nat)
    requires LogOk(log) && k <= |log|
    requires forall i :: k <= i < |log| ==> log[i].data.StrokePayload?
    ensures var tail := Payloads(log)[k..];
      forall i :: 0 <= i < |tail| ==> tail[i].StrokePayload? && |tail[i].stroke.path| > 0
  {
    var tail := Payloads(log)[k..];
    forall i | 0 <= i < |tail|
      ensures tail[i].StrokePayload? && |tail[i].stroke.path| > 0
    {
      assert tail[i] == log[k + i].data;
      assert CommandOk(log[k + i]);
    }
  }

  /**
   * Two distinct connections join a room nobody is in and that has no
   * stored log; the first draws from one point to another. The room's log
   * then holds exactly that stroke, the member list is the two connections
   * in join order, and the last three messages are the start, the move and
   * the end, each addressed to the room except the drawer.
   */
  lemma TwoPeersOneStroke(s: Server, a: ConnId, b: ConnId, roomId: RoomId, from: Point, to: Point, color: string, width: int, t0: Time, t1: Time)
    requires a != b
    requires roomId !in s.rooms && roomId !in s.store
    ensures
      var trace := Joins([a, b], roomId, t0) + Gesture(a, roomId, from, color, width, [to], t0, t1);
      var o := Run(s, trace);
      && MembersOf(o.state.rooms, roomId) == [a, b]
      && LogOf(o.state.store, roomId) == [StrokeCommand(Stroke([from, to], color, width, t0))]
      && |o.sent| >= 3
      && o.sent[|o.sent| - 3..] == [
           Outbound(ToOthersIn(roomId), DrawStartOut(from, color, width)),
           Outbound(ToOthersIn(roomId), DrawMoveOut(to)),
           Outbound(ToOthersIn(roomId), DrawEndOut)]
  {
    var joins := Joins([a, b], roomId, t0);
    var gesture := Gesture(a, roomId, from, color, width, [to], t0, t1);
    var mid := Run(s, joins);
    assert MembersOf(mid.state.rooms, roomId) == [a, b] && mid.state.store == s.store by {
      assert NoDup([a, b]);
      JoinsFillRoom(s, [a, b], roomId, t0);
    }
    var last := Run(mid.state, gesture);
    OnePointGesture(mid.state, a, roomId, from, to, color, width, t0, t1);
    RunAppend(s, joins, gesture);
    var all := mid.sent + last.sent;
    assert all[|all| - 3..] == last.sent;
  }

  /** A gesture with a single move, drawn into a room with an empty log, leaves exactly that stroke. */
  lemma OnePointGesture(s: Server, a: ConnId, roomId: RoomId, from: Point, to: Point, color: string, width: int, t0: Time, t1: Time)
    requires LogOf(s.store, roomId) == []
    ensures
      var o := Run(s, Gesture(a, roomId, from, color, width, [to], t0, t1));
      && o.state.rooms == s.rooms
      && LogOf(o.state.store, roomId) == [StrokeCommand(Stroke([from, to], color, width, t0))]
      && o.sent == [Outbound(ToOthersIn(roomId), DrawStartOut(from, color, width)),
                    Outbound(ToOthersIn(roomId), DrawMoveOut(to)),
                    Outbound(ToOthersIn(roomId), DrawEndOut)]
  {
    GestureCommitsIffMoved(s, a, roomId, from, color, width, [to], t0, t1);
    assert [from] + [to] == [from, to];
    assert MoveEchoes(roomId, [to]) == [Outbound(ToOthersIn(roomId), DrawMoveOut(to))];
  }

  /** The socket events the page's own emissions arrive as; returning to the lobby stays on the client. */
  function PageToServer(c: ConnId, es: seq<ClientEmit>, now: Time): (r: seq<Input>)
    ensures |r| <= |es|
    decreases |es|
  {
    if |es| == 0 then []
    else
      var head :=
        match es[0]
        case EmitJoinRoom(r) => [Input(c, JoinRoom(r), now, true)]
        case EmitCursorMove(r, p) => [Input(c, CursorMove(r, p), now, true)]
        case EmitLeaveRoom(r) => [Input(c, LeaveRoom(r), now, true)]
        case CloseSocket => [Input(c, Disconnect, now, true)]
        case BackToLobby => [];
      head + PageToServer(c, es[1..], now)
  }

  /**
   * The leave button, seen from the server: the connection is gone, it is no
   * longer listed in its room (unless the room id is the empty string, which
   * the leave handler ignores), no other room changes, and the registry ends
   * as one leave would leave it, while the remaining members hear about it
   * twice.
   */
  lemma LeaveButtonLeavesRoom(s: Server, c: ConnId, roomId: RoomId, now: Time)
    requires RegistryOk(s.rooms)
    requires ConnOf(s, c).roomId == Some(roomId)
    ensures
      var o := Run(s, PageToServer(c, OnLeaveRoom(true, roomId), now));
      var once := Leave(s, c, Some(roomId));
      && c !in o.state.conns
      && (roomId != "" ==> c !in MembersOf(o.state.rooms, roomId))
      && o.state.rooms - {roomId} == s.rooms - {roomId}
      && o.state.rooms == once.state.rooms
      && o.sent == once.sent + once.sent
  {
    var es := OnLeaveRoom(true, roomId);
    var leave := Input(c, LeaveRoom(roomId), now, true);
    var close := Input(c, Disconnect, now, true);
    assert es == [EmitLeaveRoom(roomId), CloseSocket, BackToLobby];
    assert PageToServer(c, es[2..], now) == [] by {
      assert es[2..] == [BackToLobby] && es[2..][1..] == [];
    }
    assert PageToServer(c, es[1..], now) == [close] by {
      assert es[1..][0] == CloseSocket && es[1..][1..] == es[2..];
    }
    assert PageToServer(c, es, now) == [leave, close];
    LeaveThenDisconnect(s, c, roomId, now);
    if roomId != "" && roomId in s.rooms {
      assert c !in Delete(s.rooms[roomId], c);
    }
  }
}

=== FILE: member_list.dfy ===
/**
 * A JavaScript `Set` of connection ids, as the relay's registry keeps one per
 * room. A `Set` iterates in insertion order and holds no element twice, so it
 * is modelled as a sequence without duplicates; `Array.from` of the set is the
 * sequence itself.
 */
module MemberList {

  /** No element occurs twice. */
  predicate NoDup<T(==)>(s: seq<T>) {
    forall i, j :: 0 <= i < j < |s| ==> s[i] != s[j]
  }

  /** `set.add(x)`: appends `x` unless it is already present, in which case the set is unchanged. */
  function Add<T(==,!new)>(s: seq<T>, x: T): (r: seq<T>)
    ensures forall y :: y in r <==> y in s || y == x
    ensures |s| <= |r| <= |s| + 1
    ensures r[..|s|] == s
    ensures NoDup(s) ==> NoDup(r)
  {
    if x in s then s else s + [x]
  }

  /** `set.delete(x)`: drops `x`, keeping the order of everything else. */
  function Delete<T(==,!new)>(s: seq<T>, x: T): (r: seq<T>)
    ensures forall y :: y in r <==> y in s && y != x
    ensures |r| <= |s|
    ensures x !in s ==> r == s
    ensures NoDup(s) ==> NoDup(r)
    ensures NoDup(s) && x in s ==> |r| == |s| - 1
    ensures NoDup(s) ==> forall i :: 0 <= i < |s| && s[i] == x ==> r == s[..i] + s[i + 1..]
  {
    if |s| == 0 then []
    else if s[0] == x then
      DeleteHeadStep(s, x);
      Delete(s[1..], x)
    else
      var rest := Delete(s[1..], x);
      DeleteTailStep(s, x, rest);
      [s[0]] + rest
  }

  /** When `x` heads a duplicate-free sequence, the tail does not hold it and deleting it leaves the tail. */
  lemma DeleteHeadStep<T>(s: seq<T>, x: T)
    requires |s| > 0 && s[0] == x
    ensures NoDup(s) ==> x !in s[1..] && NoDup(s[1..])
    ensures NoDup(s) ==> forall i :: 0 <= i < |s| && s[i] == x ==> s[1..] == s[..i] + s[i + 1..]
  {
    if NoDup(s) {
      NoDupSplit(s);
      DeleteHeadKeepsOrder(s, x);
    }
  }

  /** Putting a head other than `x` back in front of the tail with `x` deleted keeps the duplicate-free order. */
  lemma DeleteTailStep<T>(s: seq<T>, x: T, rest: seq<T>)
    requires |s| > 0 && s[0] != x
    requires forall y :: y in rest ==> y in s[1..]
    requires NoDup(s[1..]) ==> NoDup(rest)
    requires NoDup(s[1..]) ==> forall j :: 0 <= j < |s| - 1 && s[1..][j] == x ==> rest == s[1..][..j] + s[1..][j + 1..]
    ensures NoDup(s) ==> NoDup([s[0]] + rest)
    ensures NoDup(s) ==> forall i :: 0 <= i < |s| && s[i] == x ==> [s[0]] + rest == s[..i] + s[i + 1..]
  {
    if NoDup(s) {
      NoDupSplit(s);
      NoDupPrepend(s[0], rest);
      DeleteTailKeepsOrder(s, x, rest);
    }
  }

  /** Deleting the head of a duplicate-free sequence leaves its tail, and the head is the only occurrence. */
  lemma DeleteHeadKeepsOrder<T>(s: seq<T>, x: T)
    requires |s| > 0 && s[0] == x && NoDup(s)
    ensures forall i :: 0 <= i < |s| && s[i] == x ==> s[1..] == s[..i] + s[i + 1..]
  {
    forall i | 0 <= i < |s| && s[i] == x
      ensures s[1..] == s[..i] + s[i + 1..]
    {
      assert i == 0;
    }
  }

  /** Keeping a head other than `x` in front of the tail with `x` removed is `s` with `x` removed. */
  lemma DeleteTailKeepsOrder<T>(s: seq<T>, x: T, rest: seq<T>)
    requires |s| > 0 && s[0] != x
    requires forall j :: 0 <= j < |s| - 1 && s[1..][j] == x ==> rest == s[1..][..j] + s[1..][j + 1..]
    ensures forall i :: 0 <= i < |s| && s[i] == x ==> [s[0]] + rest == s[..i] + s[i + 1..]
  {
    forall i | 0 <= i < |s| && s[i] == x
      ensures [s[0]] + rest == s[..i] + s[i + 1..]
    {
      assert s[1..][i - 1] == x;
      assert s[..i] == [s[0]] + s[1..][..i - 1];
      assert s[i + 1..] == s[1..][i..];
    }
  }

  /** The head of a duplicate-free sequence does not recur in its tail. */
  lemma NoDupSplit<T>(s: seq<T>)
    requires |s| > 0 && NoDup(s)
    ensures s[0] !in s[1..] && NoDup(s[1..])
  {
  }

  /** Prepending an element absent from a duplicate-free sequence keeps it duplicate-free. */
  lemma NoDupPrepend<T>(a: T, t: seq<T>)
    requires a !in t && NoDup(t)
    ensures NoDup([a] + t)
  {
    var u := [a] + t;
    forall i, j | 0 <= i < j < |u|
      ensures u[i] != u[j]
    {
      if i == 0 {
        assert u[j] == t[j - 1];
      } else {
        assert u[i] == t[i - 1] && u[j] == t[j - 1];
      }
    }
  }
}

=== FILE: relay.dfy ===
/**
 * The socket relay as one sequential state machine. Its state is the room
 * registry (room id to the ordered set of member connections), each live
 * connection's bound room and in-progress stroke, and the persisted room
 * store that stands for the command log. `Step` consumes one inbound event
 * from one connection and returns the next state with the messages sent,
 * each tagged with its audience.
 *
 * As in the handlers, the target room of a drawing, clear or cursor event is
 * the one named in the event, not the connection's bound room, and nothing
 * checks that the sender belongs to it.
 */
module Relay {
  import opened Wrappers
  import opened MemberList
  import opened RoomModel

  type ConnId = string

  /** Room id to the connection ids joined to it, in join order. */
  type Registry = map<RoomId, seq<ConnId>>

  /** What the server keeps on a socket: `socket.roomId` and `socket.currentStroke`. */
  datatype Conn = Conn(roomId: Option<RoomId>, currentStroke: Option<Stroke>)

  datatype Server = Server(rooms: Registry, conns: map<ConnId, Conn>, store: Store)

  /** Inbound events with their payloads. */
  datatype Event =
    | JoinRoom(roomId: RoomId)
    | DrawStart(roomId: RoomId, at: Point, color: string, strokeWidth: int)
    | DrawMove(roomId: RoomId, at: Point)
    | DrawEnd(roomId: RoomId)
    | ClearCanvas(roomId: RoomId)
    | CursorMove(roomId: RoomId, position: Point)
    | LeaveRoom(roomId: RoomId)
    | Disconnect

  /** One event from one connection, with the clock reading and whether the database answers. */
  datatype Input = Input(sender: ConnId, event: Event, now: Time, storageUp: bool)

  /** `socket.emit`, `socket.to(room).emit` and `io.to(room).emit`. */
  datatype Audience = ToSender | ToOthersIn(roomId: RoomId) | ToAllIn(roomId: RoomId)

  datatype Message =
    | LoadDrawingOut(commands: seq<Payload>)
    | RoomUsersOut(users: seq<ConnId>)
    | DrawStartOut(at: Point, color: string, strokeWidth: int)
    | DrawMoveOut(at: Point)
    | DrawEndOut
    | ClearCanvasOut
    | CursorMoveOut(userId: ConnId, position: Point)
    | UserLeftOut(userId: ConnId)
    | JoinFailedOut

  datatype Outbound = Outbound(to: Audience, msg: Message)

  /** The state after a step and what the step sent, in emission order. */
  datatype Outcome = Outcome(state: Server, sent: seq<Outbound>)

  /**
   * The server at start-up: the module-level `rooms` map is empty, no socket
   * has state yet, and the database holds whatever it already held. A
   * well-formed store makes a server that satisfies the invariant.
   */
  function Boot(store: Store): (r: Server)
    ensures r.store == store
    ensures forall roomId :: MembersOf(r.rooms, roomId) == []
    ensures forall c :: ConnOf(r, c) == Conn(None, None)
    ensures StoreOk(store) ==> Invariant(r)
  {
    Server(map[], map[], store)
  }

  /** The members of a room; a room absent from the registry has none. */
  function MembersOf(rooms: Registry, roomId: RoomId): seq<ConnId> {
    if roomId in rooms then rooms[roomId] else []
  }

  /** The socket record of a connection; a connection that has sent nothing yet has neither a room nor a stroke. */
  function ConnOf(s: Server, c: ConnId): Conn {
    if c in s.conns then s.conns[c] else Conn(None, None)
  }

  /** `room.drawingData.map(cmd => cmd.data)`. */
  function Payloads(cmds: seq<Command>): (r: seq<Payload>)
    ensures |r| == |cmds|
    ensures forall i :: 0 <= i < |cmds| ==> r[i] == cmds[i].data
  {
    seq(|cmds|, i requires 0 <= i < |cmds| => cmds[i].data)
  }

  /** Registry invariant: every listed room has at least one member and no member twice. */
  predicate RegistryOk(rooms: Registry) {
    forall r :: r in rooms ==> |rooms[r]| > 0 && NoDup(rooms[r])
  }

  predicate LogOk(cmds: seq<Command>) {
    forall i :: 0 <= i < |cmds| ==> CommandOk(cmds[i])
  }

  predicate StoreOk(store: Store) {
    Keyed(store) && forall r :: r in store ==> LogOk(store[r].drawingData)
  }

  predicate Invariant(s: Server) {
    RegistryOk(s.rooms) && StoreOk(s.store)
  }

  /**
   * `join-room`: binds the socket to the room and adds it to the member set,
   * without leaving any room joined before; then sends the stored commands to
   * the joiner alone when there are any, and the full member list to the
   * whole room. When the lookup fails, the membership change stays and only
   * the joiner hears of the failure.
   */
  function Join(s: Server, c: ConnId, roomId: RoomId, storageUp: bool): (r: Outcome)
    ensures c in MembersOf(s.rooms, roomId) ==> MembersOf(r.state.rooms, roomId) == MembersOf(s.rooms, roomId)
    ensures c !in MembersOf(s.rooms, roomId) ==> MembersOf(r.state.rooms, roomId) == MembersOf(s.rooms, roomId) + [c]
    ensures r.state.rooms - {roomId} == s.rooms - {roomId}
    ensures r.state.store == s.store
    ensures ConnOf(r.state, c) == ConnOf(s, c).(roomId := Some(roomId))
    ensures !storageUp ==> r.sent == [Outbound(ToSender, JoinFailedOut)]
    ensures storageUp ==>
      && |r.sent| > 0
      && r.sent[|r.sent| - 1] == Outbound(ToAllIn(roomId), RoomUsersOut(MembersOf(r.state.rooms, roomId)))
      && (|LogOf(s.store, roomId)| > 0 <==> |r.sent| == 2)
      && (|r.sent| == 2 ==> r.sent[0] == Outbound(ToSender, LoadDrawingOut(Payloads(LogOf(s.store, roomId)))))
    ensures storageUp && |LogOf(s.store, roomId)| == 0 ==> |r.sent| == 1
    ensures RegistryOk(s.rooms) ==> RegistryOk(r.state.rooms)
  {
    var members := Add(MembersOf(s.rooms, roomId), c);
    var next := s.(rooms := s.rooms[roomId := members], conns := s.conns[c := ConnOf(s, c).(roomId := Some(roomId))]);
    assert RegistryOk(s.rooms) ==> RegistryOk(next.rooms) by {
      if RegistryOk(s.rooms) {
        assert NoDup(MembersOf(s.rooms, roomId));
        assert |members| > 0 && NoDup(members);
      }
    }
    if !storageUp then Outcome(next, [Outbound(ToSender, JoinFailedOut)])
    else
      var log := LogOf(s.store, roomId);
      var load := if |log| > 0 then [Outbound(ToSender, LoadDrawingOut(Payloads(log)))] else [];
      Outcome(next, load + [Outbound(ToAllIn(roomId), RoomUsersOut(members))])
  }

  /** `draw-start`: relays the first point with colour and width, and opens a fresh buffer, discarding any open one. */
  function StartStroke(s: Server, c: ConnId, roomId: RoomId, at: Point, color: string, strokeWidth: int, now: Time): (r: Outcome)
    ensures r.sent == [Outbound(ToOthersIn(roomId), DrawStartOut(at, color, strokeWidth))]
    ensures ConnOf(r.state, c).currentStroke == Some(Stroke([at], color, strokeWidth, now))
    ensures ConnOf(r.state, c).roomId == ConnOf(s, c).roomId
    ensures r.state.rooms == s.rooms && r.state.store == s.store
  {
    var conn := ConnOf(s, c);
    Outcome(s.(conns := s.conns[c := conn.(currentStroke := Some(Stroke([at], color, strokeWidth, now)))]),
            [Outbound(ToOthersIn(roomId), DrawStartOut(at, color, strokeWidth))])
  }

  /** `draw-move`: relays the point, and appends it to the buffer if one is open; with no buffer nothing changes. */
  function ExtendStroke(s: Server, c: ConnId, roomId: RoomId, at: Point): (r: Outcome)
    ensures r.sent == [Outbound(ToOthersIn(roomId), DrawMoveOut(at))]
    ensures ConnOf(s, c).currentStroke.None? ==> r.state == s
    ensures ConnOf(s, c).currentStroke.Some? ==>
      var st := ConnOf(s, c).currentStroke.value;
      ConnOf(r.state, c).currentStroke == Some(st.(path := st.path + [at]))
    ensures ConnOf(r.state, c).roomId == ConnOf(s, c).roomId
    ensures r.state.rooms == s.rooms && r.state.store == s.store
  {
    var conn := ConnOf(s, c);
    var next :=
      if conn.currentStroke.None? then s
      else
        var st := conn.currentStroke.value;
        s.(conns := s.conns[c := conn.(currentStroke := Some(st.(path := st.path + [at])))]);
    Outcome(next, [Outbound(ToOthersIn(roomId), DrawMoveOut(at))])
  }

  /**
   * `draw-end`: relays the end, commits the buffer to the named room's log
   * only when it holds more than one point and the database answers, and
   * always empties the buffer.
   */
  function EndStroke(s: Server, c: ConnId, roomId: RoomId, now: Time, storageUp: bool): (r: Outcome)
    ensures r.sent == [Outbound(ToOthersIn(roomId), DrawEndOut)]
    ensures ConnOf(r.state, c) == ConnOf(s, c).(currentStroke := None)
    ensures r.state.rooms == s.rooms
    ensures
      var buffer := ConnOf(s, c).currentStroke;
      if buffer.Some? && |buffer.value.path| > 1 && storageUp
      then r.state.store == PushCommand(s.store, roomId, StrokeCommand(buffer.value), now)
      else r.state.store == s.store
    ensures StoreOk(s.store) ==> StoreOk(r.state.store)
  {
    var conn := ConnOf(s, c);
    var store :=
      if conn.currentStroke.Some? && |conn.currentStroke.value.path| > 1 && storageUp
      then PushCommand(s.store, roomId, StrokeCommand(conn.currentStroke.value), now)
      else s.store;
    assert StoreOk(s.store) ==> StoreOk(store) by {
      if StoreOk(s.store) && store != s.store {
        PushKeepsLogsOk(s.store, roomId, StrokeCommand(conn.currentStroke.value), now);
      }
    }
    Outcome(Server(s.rooms, s.conns[c := conn.(currentStroke := None)], store), [Outbound(ToOthersIn(roomId), DrawEndOut)])
  }

  /** `clear-canvas`: relays to the whole room, sender included, and appends one clear command when the database answers. */
  function Clear(s: Server, c: ConnId, roomId: RoomId, now: Time, storageUp: bool): (r: Outcome)
    ensures r.sent == [Outbound(ToAllIn(roomId), ClearCanvasOut)]
    ensures r.state.rooms == s.rooms && r.state.conns == s.conns
    ensures storageUp ==> r.state.store == PushCommand(s.store, roomId, ClearCommand(now), now)
    ensures !storageUp ==> r.state.store == s.store
    ensures StoreOk(s.store) ==> StoreOk(r.state.store)
  {
    var store := if storageUp then PushCommand(s.store, roomId, ClearCommand(now), now) else s.store;
    assert StoreOk(s.store) ==> StoreOk(store) by {
      if StoreOk(s.store) && storageUp {
        PushKeepsLogsOk(s.store, roomId, ClearCommand(now), now);
      }
    }
    Outcome(s.(store := store), [Outbound(ToAllIn(roomId), ClearCanvasOut)])
  }

  /** `cursor-move`: relays the sender's id and position to the others in the room; no state changes. */
  function MoveCursor(s: Server, c: ConnId, roomId: RoomId, position: Point): (r: Outcome)
    ensures r.state == s
    ensures r.sent == [Outbound(ToOthersIn(roomId), CursorMoveOut(c, position))]
  {
    Outcome(s, [Outbound(ToOthersIn(roomId), CursorMoveOut(c, position))])
  }

  /**
   * `handleUserLeave`: a falsy room id does nothing. Otherwise, if the room
   * is registered, the connection is deleted from it; an emptied room is
   * dropped silently, and a room with members left gets the new member list
   * and then `user-left`. The socket record is not touched.
   */
  function Leave(s: Server, c: ConnId, roomId: Option<RoomId>): (r: Outcome)
    ensures r.state.conns == s.conns && r.state.store == s.store
    ensures Falsy(roomId) || roomId.value !in s.rooms ==> r == Outcome(s, [])
    ensures !Falsy(roomId) && roomId.value in s.rooms ==>
      var id := roomId.value;
      var rest := Delete(s.rooms[id], c);
      && r.state.rooms - {id} == s.rooms - {id}
      && (|rest| == 0 ==> id !in r.state.rooms && r.sent == [])
      && (|rest| > 0 ==>
            && id in r.state.rooms && r.state.rooms[id] == rest
            && r.sent == [Outbound(ToAllIn(id), RoomUsersOut(rest)), Outbound(ToAllIn(id), UserLeftOut(c))])
    ensures RegistryOk(s.rooms) ==> RegistryOk(r.state.rooms)
  {
    if Falsy(roomId) || roomId.value !in s.rooms then Outcome(s, [])
    else
      var id := roomId.value;
      var rest := Delete(s.rooms[id], c);
      if |rest| == 0 then Outcome(s.(rooms := s.rooms - {id}), [])
      else Outcome(s.(rooms := s.rooms[id := rest]),
                   [Outbound(ToAllIn(id), RoomUsersOut(rest)), Outbound(ToAllIn(id), UserLeftOut(c))])
  }

  /** `disconnect`: leaves the socket's bound room, then the socket and any open buffer are gone. */
  function Drop(s: Server, c: ConnId): (r: Outcome)
    ensures r.state.conns == s.conns - {c}
    ensures r.state.store == s.store
    ensures r.state.rooms == Leave(s, c, ConnOf(s, c).roomId).state.rooms
    ensures r.sent == Leave(s, c, ConnOf(s, c).roomId).sent
  {
    var left := Leave(s, c, ConnOf(s, c).roomId);
    Outcome(left.state.(conns := left.state.conns - {c}), left.sent)
  }

  /** Dispatches one inbound event to its handler. */
  function Step(s: Server, input: Input): Outcome {
    var c := input.sender;
    match input.event
    case JoinRoom(roomId) => Join(s, c, roomId, input.storageUp)
    case DrawStart(roomId, at, color, w) => StartStroke(s, c, roomId, at, color, w, input.now)
    case DrawMove(roomId, at) => ExtendStroke(s, c, roomId, at)
    case DrawEnd(roomId) => EndStroke(s, c, roomId, input.now, input.storageUp)
    case ClearCanvas(roomId) => Clear(s, c, roomId, input.now, input.storageUp)
    case CursorMove(roomId, position) => MoveCursor(s, c, roomId, position)
    case LeaveRoom(roomId) => Leave(s, c, Some(roomId))
    case Disconnect => Drop(s, c)
  }

  /**
   * Every event keeps the registry and the store well-formed; only
   * `draw-end` and `clear-canvas` write to the store, `cursor-move` changes
   * nothing, and no event touches another connection's socket record.
   */
  lemma StepFacts(s: Server, input: Input)
    ensures Invariant(s) ==> Invariant(Step(s, input).state)
    ensures input.event.CursorMove? ==> Step(s, input).state == s
    ensures !(input.event.DrawEnd? || input.event.ClearCanvas?) ==> Step(s, input).state.store == s.store
    ensures forall d :: d != input.sender ==> ConnOf(Step(s, input).state, d) == ConnOf(s, d)
  {
  }

  /** Appending a well-formed command keeps every room's log well-formed and the store keyed. */
  lemma PushKeepsLogsOk(store: Store, roomId: RoomId, cmd: Command, now: Time)
    requires StoreOk(store) && CommandOk(cmd)
    ensures StoreOk(PushCommand(store, roomId, cmd, now))
  {
    var next := PushCommand(store, roomId, cmd, now);
    forall r | r in next
      ensures LogOk(next[r].drawingData)
    {
      if r == roomId {
        assert next[r].drawingData == LogOf(store, roomId) + [cmd];
      }
    }
  }
}

=== FILE: relay_properties.dfy ===
/**
 * Properties of the relay over sequences of inbound events: a whole stroke
 * gesture, a disconnect in the middle of one, a client's leave sequence, a
 * room filling up, and the behaviour of a connection that joins a second
 * room.
 */
module RelayProperties {
  import opened Wrappers
  import opened MemberList
  import opened RoomModel
  import opened Relay

  /** Feeds the events to a step function in order, collecting everything sent. */
  function Fold(step: (Server, Input) -> Outcome, s: Server, trace: seq<Input>): Outcome
    decreases |trace|
  {
    if |trace| == 0 then Outcome(s, [])
    else
      var first := step(s, trace[0]);
      var rest := Fold(step, first.state, trace[1..]);
      Outcome(rest.state, first.sent + rest.sent)
  }

  /** Feeds the events to the server in order, collecting everything sent. */
  function Run(s: Server, trace: seq<Input>): Outcome {
    Fold(Step, s, trace)
  }

  /** Folding two traces back to back is folding their concatenation, whatever the step. */
  lemma {:induction false} FoldAppend(step: (Server, Input) -> Outcome, s: Server, a: seq<Input>, b: seq<Input>)
    ensures Fold(step, s, a + b).state == Fold(step, Fold(step, s, a).state, b).state
    ensures Fold(step, s, a + b).sent == Fold(step, s, a).sent + Fold(step, Fold(step, s, a).state, b).sent
    decreases |a|
  {
    if |a| == 0 {
      assert a + b == b;
    } else {
      assert (a + b)[0] == a[0];
      assert (a + b)[1..] == a[1..] + b;
      FoldAppend(step, step(s, a[0]).state, a[1..], b);
    }
  }

  /** Running two traces back to back is running their concatenation. */
  lemma RunAppend(s: Server, a: seq<Input>, b: seq<Input>)
    ensures Run(s, a + b).state == Run(Run(s, a).state, b).state
    ensures Run(s, a + b).sent == Run(s, a).sent + Run(Run(s, a).state, b).sent
  {
    FoldAppend(Step, s, a, b);
  }

  lemma FoldOne(step: (Server, Input) -> Outcome, s: Server, i: Input)
    ensures Fold(step, s, [i]) == step(s, i)
  {
    assert [i][1..] == [];
    assert step(s, i).sent + [] == step(s, i).sent;
  }

  lemma FoldCons(step: (Server, Input) -> Outcome, s: Server, i: Input, rest: seq<Input>)
    ensures Fold(step, s, [i] + rest).state == Fold(step, step(s, i).state, rest).state
    ensures Fold(step, s, [i] + rest).sent == step(s, i).sent + Fold(step, step(s, i).state, rest).sent
  {
    FoldAppend(step, s, [i], rest);
    FoldOne(step, s, i);
  }

  lemma FoldSnoc(step: (Server, Input) -> Outcome, s: Server, init: seq<Input>, i: Input)
    ensures
      var mid := Fold(step, s, init);
      && Fold(step, s, init + [i]).state == step(mid.state, i).state
      && Fold(step, s, init + [i]).sent == mid.sent + step(mid.state, i).sent
  {
    FoldAppend(step, s, init, [i]);
    FoldOne(step, Fold(step, s, init).state, i);
  }

  lemma FoldTwo(step: (Server, Input) -> Outcome, s: Server, i0: Input, i1: Input)
    ensures Fold(step, s, [i0, i1]).state == step(step(s, i0).state, i1).state
    ensures Fold(step, s, [i0, i1]).sent == step(s, i0).sent + step(step(s, i0).state, i1).sent
  {
    assert [i0, i1] == [i0] + [i1];
    FoldCons(step, s, i0, [i1]);
    FoldOne(step, step(s, i0).state, i1);
  }

  lemma FoldThree(step: (Server, Input) -> Outcome, s: Server, i0: Input, i1: Input, i2: Input)
    ensures Fold(step, s, [i0, i1, i2]).state == step(step(step(s, i0).state, i1).state, i2).state
  {
    assert [i0, i1, i2] == [i0] + [i1, i2];
    FoldCons(step, s, i0, [i1, i2]);
    FoldTwo(step, step(s, i0).state, i1, i2);
  }

  lemma RunOne(s: Server, i: Input)
    ensures Run(s, [i]) == Step(s, i)
  {
    FoldOne(Step, s, i);
  }

  /** Splitting off the first event. */
  lemma RunCons(s: Server, i: Input, rest: seq<Input>)
    ensures Run(s, [i] + rest).state == Run(Step(s, i).state, rest).state
    ensures Run(s, [i] + rest).sent == Step(s, i).sent + Run(Step(s, i).state, rest).sent
  {
    FoldCons(Step, s, i, rest);
  }

  /** Splitting off the last event. */
  lemma RunSnoc(s: Server, init: seq<Input>, i: Input)
    ensures
      var mid := Run(s, init);
      && Run(s, init + [i]).state == Step(mid.state, i).state
      && Run(s, init + [i]).sent == mid.sent + Step(mid.state, i).sent
  {
    FoldSnoc(Step, s, init, i);
  }

  lemma RunTwo(s: Server, i0: Input, i1: Input)
    ensures Run(s, [i0, i1]).state == Step(Step(s, i0).state, i1).state
    ensures Run(s, [i0, i1]).sent == Step(s, i0).sent + Step(Step(s, i0).state, i1).sent
  {
    FoldTwo(Step, s, i0, i1);
  }

  lemma RunThree(s: Server, i0: Input, i1: Input, i2: Input)
    ensures Run(s, [i0, i1, i2]).state == Step(Step(Step(s, i0).state, i1).state, i2).state
  {
    FoldThree(Step, s, i0, i1, i2);
  }

  /** Any sequence of events from any connections keeps the registry and the store well-formed. */
  lemma {:induction false} RunKeepsInvariant(s: Server, trace: seq<Input>)
    requires Invariant(s)
    ensures Invariant(Run(s, trace).state)
    decreases |trace|
  {
    if |trace| > 0 {
      assert trace == [trace[0]] + trace[1..];
      RunCons(s, trace[0], trace[1..]);
      StepFacts(s, trace[0]);
      RunKeepsInvariant(Step(s, trace[0]).state, trace[1..]);
    }
  }

  /** The `draw-move` events of one connection for the given points. */
  function Moves(c: ConnId, roomId: RoomId, points: seq<Point>, now: Time): (r: seq<Input>)
    ensures |r| == |points|
    decreases |points|
  {
    if |points| == 0 then [] else [Input(c, DrawMove(roomId, points[0]), now, true)] + Moves(c, roomId, points[1..], now)
  }

  /** What the other members of the room receive for those moves. */
  function MoveEchoes(roomId: RoomId, points: seq<Point>): (r: seq<Outbound>)
    ensures |r| == |points|
    decreases |points|
  {
    if |points| == 0 then [] else [Outbound(ToOthersIn(roomId), DrawMoveOut(points[0]))] + MoveEchoes(roomId, points[1..])
  }

  /** With a buffer open, each move appends its point in order and is echoed to the room; nothing else changes. */
  lemma {:induction false} MovesExtendBuffer(s: Server, c: ConnId, roomId: RoomId, points: seq<Point>, now: Time, st: Stroke)
    requires ConnOf(s, c).currentStroke == Some(st)
    ensures
      var o := Run(s, Moves(c, roomId, points, now));
      && o.state == s.(conns := s.conns[c := ConnOf(s, c).(currentStroke := Some(st.(path := st.path + points)))])
      && o.sent == MoveEchoes(roomId, points)
    decreases |points|
  {
    if |points| == 0 {
      assert st.path + points == st.path;
      assert s.conns[c := ConnOf(s, c)] == s.conns;
    } else {
      var head := Input(c, DrawMove(roomId, points[0]), now, true);
      var st1 := st.(path := st.path + [points[0]]);
      var s1 := s.(conns := s.conns[c := ConnOf(s, c).(currentStroke := Some(st1))]);
      assert Step(s, head) == Outcome(s1, [Outbound(ToOthersIn(roomId), DrawMoveOut(points[0]))]);
      RunCons(s, head, Moves(c, roomId, points[1..], now));
      MovesExtendBuffer(s1, c, roomId, points[1..], now, st1);
      assert st1.path + points[1..] == st.path + points by {
        assert points == [points[0]] + points[1..];
      }
    }
  }

  /** One gesture from one connection: `draw-start`, a `draw-move` per further point, `draw-end`. */
  function Gesture(c: ConnId, roomId: RoomId, start: Point, color: string, width: int, moves: seq<Point>, t0: Time, t1: Time): seq<Input> {
    [Input(c, DrawStart(roomId, start, color, width), t0, true)] + Moves(c, roomId, moves, t1) + [Input(c, DrawEnd(roomId), t1, true)]
  }

  /**
   * A gesture commits exactly one stroke, holding the start point followed
   * by the moves in order, if and only if it has at least one move; the
   * others in the room see start, moves and end in that order; the buffer is
   * empty afterwards and no other room's log changes.
   */
  lemma {:induction false} GestureCommitsIffMoved(s: Server, c: ConnId, roomId: RoomId, start: Point, color: string, width: int, moves: seq<Point>, t0: Time, t1: Time)
    ensures
      var o := Run(s, Gesture(c, roomId, start, color, width, moves, t0, t1));
      && o.state.rooms == s.rooms
      && ConnOf(o.state, c) == ConnOf(s, c).(currentStroke := None)
      && o.sent == [Outbound(ToOthersIn(roomId), DrawStartOut(start, color, width))]
                   + MoveEchoes(roomId, moves) + [Outbound(ToOthersIn(roomId), DrawEndOut)]
      && (|moves| > 0 ==> LogOf(o.state.store, roomId) == LogOf(s.store, roomId) + [StrokeCommand(Stroke([start] + moves, color, width, t0))])
      && (|moves| == 0 ==> o.state.store == s.store)
      && (forall q :: q != roomId ==> LogOf(o.state.store, q) == LogOf(s.store, q))
  {
    var begin := [Input(c, DrawStart(roomId, start, color, width), t0, true)];
    var middle := Moves(c, roomId, moves, t1);
    var end := [Input(c, DrawEnd(roomId), t1, true)];
    assert Gesture(c, roomId, start, color, width, moves, t0, t1) == (begin + middle) + end;
    RunAppend(s, begin + middle, end);
    RunAppend(s, begin, middle);
    RunOne(s, begin[0]);
    var s1 := Run(s, begin).state;
    MovesExtendBuffer(s1, c, roomId, moves, t1, Stroke([start], color, width, t0));
    var s2 := Run(s1, middle).state;
    RunOne(s2, end[0]);
  }

  /** Events other than `draw-end` and `clear-canvas` never write to the log. */
  lemma {:induction false} OnlyEndAndClearWrite(s: Server, trace: seq<Input>)
    requires forall i :: 0 <= i < |trace| ==> !trace[i].event.DrawEnd? && !trace[i].event.ClearCanvas?
    ensures Run(s, trace).state.store == s.store
    decreases |trace|
  {
    if |trace| > 0 {
      assert trace == [trace[0]] + trace[1..];
      RunCons(s, trace[0], trace[1..]);
      StepFacts(s, trace[0]);
      OnlyEndAndClearWrite(Step(s, trace[0]).state, trace[1..]);
    }
  }

  /**
   * A connection that disconnects after `draw-start` and some moves commits
   * nothing: its buffer goes with its socket record, and its bound room is
   * left as `leave-room` would leave it.
   */
  lemma DisconnectMidStrokeCommitsNothing(s: Server, c: ConnId, roomId: RoomId, start: Point, color: string, width: int, moves: seq<Point>, t0: Time, t1: Time)
    ensures
      var trace := [Input(c, DrawStart(roomId, start, color, width), t0, true)] + Moves(c, roomId, moves, t1) + [Input(c, Disconnect, t1, true)];
      var o := Run(s, trace);
      && o.state.store == s.store
      && c !in o.state.conns
      && o.state.rooms == Leave(s, c, ConnOf(s, c).roomId).state.rooms
  {
    var i0 := Input(c, DrawStart(roomId, start, color, width), t0, true);
    var middle := Moves(c, roomId, moves, t1);
    var i2 := Input(c, Disconnect, t1, true);
    assert [i0] + middle + [i2] == [i0] + (middle + [i2]);
    var st := Stroke([start], color, width, t0);
    var s1 := s.(conns := s.conns[c := ConnOf(s, c).(currentStroke := Some(st))]);
    assert Step(s, i0).state == s1;
    RunCons(s, i0, middle + [i2]);
    RunSnoc(s1, middle, i2);
    MovesExtendBuffer(s1, c, roomId, moves, t1, st);
    var s2 := Run(s1, middle).state;
    assert s2.rooms == s.rooms && s2.store == s.store && ConnOf(s2, c).roomId == ConnOf(s, c).roomId;
    assert Leave(s2, c, ConnOf(s, c).roomId).state.rooms == Leave(s, c, ConnOf(s, c).roomId).state.rooms;
  }

  /**
   * The client's leave button sends `leave-room` and then disconnects, so the
   * server runs the leave twice for the bound room. The registry ends as after
   * one leave, but a room with members left hears `room-users` and
   * `user-left` twice.
   */
  lemma LeaveThenDisconnect(s: Server, c: ConnId, roomId: RoomId, t: Time)
    requires RegistryOk(s.rooms)
    requires ConnOf(s, c).roomId == Some(roomId)
    ensures
      var once := Leave(s, c, Some(roomId));
      var o := Run(s, [Input(c, LeaveRoom(roomId), t, true), Input(c, Disconnect, t, true)]);
      && o.state.rooms == once.state.rooms
      && o.sent == once.sent + once.sent
      && c !in o.state.conns
  {
    var once := Leave(s, c, Some(roomId));
    var trace := [Input(c, LeaveRoom(roomId), t, true), Input(c, Disconnect, t, true)];
    RunTwo(s, trace[0], trace[1]);
    assert ConnOf(once.state, c).roomId == Some(roomId);
    if roomId != "" && roomId in s.rooms && roomId in once.state.rooms {
      var rest := Delete(s.rooms[roomId], c);
      assert once.state.rooms[roomId] == rest;
      assert Delete(rest, c) == rest;
    }
  }

  /** `join-room` events of the given connections, in order. */
  function Joins(cs: seq<ConnId>, roomId: RoomId, now: Time): (r: seq<Input>)
    ensures |r| == |cs|
    decreases |cs|
  {
    if |cs| == 0 then [] else Joins(cs[..|cs| - 1], roomId, now) + [Input(cs[|cs| - 1], JoinRoom(roomId), now, true)]
  }

  /**
   * Distinct connections joining a room nobody is in: the member list is
   * exactly those connections in join order, and the last message sent is
   * that list to the whole room.
   */
  lemma {:induction false} JoinsFillRoom(s: Server, cs: seq<ConnId>, roomId: RoomId, now: Time)
    requires roomId !in s.rooms
    requires NoDup(cs)
    ensures
      var o := Run(s, Joins(cs, roomId, now));
      && MembersOf(o.state.rooms, roomId) == cs
      && (|cs| > 0 ==> |o.sent| > 0 && o.sent[|o.sent| - 1] == Outbound(ToAllIn(roomId), RoomUsersOut(cs)))
      && o.state.store == s.store
    decreases |cs|
  {
    var n := |cs|;
    if n == 0 {
    } else {
      var init := cs[..n - 1];
      var c := cs[n - 1];
      var last := Input(c, JoinRoom(roomId), now, true);
      assert NoDup(init) && c !in init && init + [c] == cs by {
        assert cs == init + [c];
      }
      JoinsFillRoom(s, init, roomId, now);
      var mid := Run(s, Joins(init, roomId, now));
      RunSnoc(s, Joins(init, roomId, now), last);
      JoinAppendsNewcomer(mid.state, c, roomId, now);
    }
  }

  /** One `join-room` from a connection not yet in the room lists it last and announces the new list. */
  lemma JoinAppendsNewcomer(s: Server, c: ConnId, roomId: RoomId, now: Time)
    requires c !in MembersOf(s.rooms, roomId)
    ensures
      var o := Step(s, Input(c, JoinRoom(roomId), now, true));
      && MembersOf(o.state.rooms, roomId) == MembersOf(s.rooms, roomId) + [c]
      && |o.sent| > 0
      && o.sent[|o.sent| - 1] == Outbound(ToAllIn(roomId), RoomUsersOut(MembersOf(s.rooms, roomId) + [c]))
      && o.state.store == s.store
  {
    var j := Join(s, c, roomId, true);
    assert Step(s, Input(c, JoinRoom(roomId), now, true)) == j;
  }

  /**
   * `join-room` does not leave the previous room and `disconnect` only
   * leaves the most recently joined one, so a connection that joins `a` and
   * then `b` and disconnects is still listed in `a`.
   */
  lemma SecondJoinLeavesStaleMember(s: Server, c: ConnId, a: RoomId, b: RoomId, t: Time)
    requires a != b && b != ""
    ensures
      var o := Run(s, [Input(c, JoinRoom(a), t, true), Input(c, JoinRoom(b), t, true), Input(c, Disconnect, t, true)]);
      && c in MembersOf(o.state.rooms, a)
      && c !in MembersOf(o.state.rooms, b)
  {
    var i0 := Input(c, JoinRoom(a), t, true);
    var i1 := Input(c, JoinRoom(b), t, true);
    var i2 := Input(c, Disconnect, t, true);
    var s1 := Join(s, c, a, true).state;
    var s2 := Join(s1, c, b, true).state;
    var s3 := Drop(s2, c).state;
    RunThree(s, i0, i1, i2);
    assert Step(s, i0).state == s1;
    assert Step(s1, i1).state == s2;
    assert Step(s2, i2).state == s3;
    assert c in MembersOf(s2.rooms, a) by {
      assert c in MembersOf(s1.rooms, a);
      assert s2.rooms - {b} == s1.rooms - {b};
    }
    assert ConnOf(s2, c).roomId == Some(b);
    assert s3.rooms == Leave(s2, c, Some(b)).state.rooms;
    assert b in s2.rooms;
    assert c !in Delete(s2.rooms[b], c);
  }

  /**
   * `join-room` accepts the empty string as a room id, but the leave handler
   * treats it as falsy and returns early, so a connection that joined `""`
   * is still listed there after `leave-room` and `disconnect`.
   */
  lemma EmptyRoomIdIsNeverLeft(s: Server, c: ConnId, t: Time)
    ensures
      var o := Run(s, [Input(c, JoinRoom(""), t, true), Input(c, LeaveRoom(""), t, true), Input(c, Disconnect, t, true)]);
      && c in MembersOf(o.state.rooms, "")
      && c !in o.state.conns
  {
    var i0 := Input(c, JoinRoom(""), t, true);
    var i1 := Input(c, LeaveRoom(""), t, true);
    var i2 := Input(c, Disconnect, t, true);
    var s1 := Join(s, c, "", true).state;
    RunThree(s, i0, i1, i2);
    assert Step(s, i0).state == s1;
    assert Step(s1, i1).state == s1;
    assert ConnOf(s1, c).roomId == Some("");
    assert Step(s1, i2).state == s1.(conns := s1.conns - {c});
  }

  /** No socket event changes a stored room's `lastActivity`, and none deletes a stored room. */
  lemma StepKeepsLastActivity(s: Server, input: Input)
    ensures forall id :: id in s.store ==>
      id in Step(s, input).state.store && Step(s, input).state.store[id].lastActivity == s.store[id].lastActivity
  {
  }

  lemma {:induction false} RunKeepsLastActivity(s: Server, trace: seq<Input>)
    ensures forall id :: id in s.store ==>
      id in Run(s, trace).state.store && Run(s, trace).state.store[id].lastActivity == s.store[id].lastActivity
    decreases |trace|
  {
    if |trace| > 0 {
      assert trace == [trace[0]] + trace[1..];
      RunCons(s, trace[0], trace[1..]);
      StepKeepsLastActivity(s, trace[0]);
      RunKeepsLastActivity(Step(s, trace[0]).state, trace[1..]);
    }
  }

  /**
   * Drawing and clearing over the socket never postpone a room's expiry:
   * a stored room whose `lastActivity` is more than a day old is removed by
   * the next sweep, whatever the sockets did in between.
   */
  lemma SocketActivityNeverDefersExpiry(s: Server, trace: seq<Input>, id: RoomId, now: Time)
    requires id in s.store && Expired(s.store[id], now)
    ensures id in Run(s, trace).state.store
    ensures id !in Evict(Run(s, trace).state.store, now)
  {
    RunKeepsLastActivity(s, trace);
  }
}

=== FILE: room_code.dfy ===
/**
 * The lobby form: generating a fresh six-character room code, the
 * upper-casing applied as the user types and again at submit, and the check
 * that refuses an empty or blank code.
 */
module RoomCode {
  import opened Wrappers

  const Alphabet: string := "ABCDEFGHIJKLMNOPQRSTUVWXYZ0123456789"
  const CodeLength: nat := 6

  /** `s.charAt(i)`: a one-character string, or the empty string when `i` is out of range. */
  function CharAt(s: string, i: int): (r: string)
    ensures 0 <= i < |s| ==> r == [s[i]]
    ensures !(0 <= i < |s|) ==> r == ""
  {
    if 0 <= i < |s| then [s[i]] else ""
  }

  /** The first `n` draws all index into `chars`. */
  predicate InRange(chars: string, draws: seq<int>, n: nat)
    requires n <= |draws|
  {
    forall k :: 0 <= k < n ==> 0 <= draws[k] < |chars|
  }

  /** `code` spells the first `n` draws, one character of `chars` each. */
  predicate Spells(chars: string, code: string, draws: seq<int>, n: nat)
    requires n <= |draws| && InRange(chars, draws, n)
  {
    |code| == n && forall k :: 0 <= k < n ==> code[k] == chars[draws[k]]
  }

  /**
   * The loop of `generateRoomCode` over any character set: one `charAt`
   * per draw, appended in order. An out-of-range draw contributes nothing.
   */
  method SpellDraws(chars: string, draws: seq<int>) returns (code: string)
    ensures |code| <= |draws|
    ensures forall i :: 0 <= i < |code| ==> code[i] in chars
    ensures InRange(chars, draws, |draws|) ==> Spells(chars, code, draws, |draws|)
  {
    code := "";
    var i := 0;
    while i < |draws|
      invariant 0 <= i <= |draws|
      invariant |code| <= i
      invariant forall j :: 0 <= j < |code| ==> code[j] in chars
      invariant InRange(chars, draws, i) ==> Spells(chars, code, draws, i)
    {
      code := code + CharAt(chars, draws[i]);
      i := i + 1;
    }
  }

  /**
   * `generateRoomCode`: six draws, each an index into the alphabet (what
   * `Math.floor(Math.random() * chars.length)` yields), spelled out in order.
   */
  method GenerateRoomCode(draws: seq<int>) returns (code: string)
    requires |draws| == CodeLength
    ensures |code| <= CodeLength
    ensures forall i :: 0 <= i < |code| ==> code[i] in Alphabet
    ensures InRange(Alphabet, draws, CodeLength) ==> Spells(Alphabet, code, draws, CodeLength)
  {
    code := SpellDraws(Alphabet, draws);
  }

  /** The characters `String.prototype.trim` strips: the WhiteSpace and LineTerminator code points of ECMAScript. */
  predicate IsJsWhitespace(ch: char) {
    || ch == '\t' || ch == '\n' || ch == '\r' || ch == ' '
    || ch == '\U{000B}' || ch == '\U{000C}' || ch == '\U{00A0}' || ch == '\U{1680}'
    || ('\U{2000}' <= ch <= '\U{200A}')
    || ch == '\U{2028}' || ch == '\U{2029}' || ch == '\U{202F}' || ch == '\U{205F}'
    || ch == '\U{3000}' || ch == '\U{FEFF}'
  }

  predicate Blank(s: string) {
    forall i :: 0 <= i < |s| ==> IsJsWhitespace(s[i])
  }

  /** Strips leading whitespace: the result is a suffix that starts with a non-blank character, if any. */
  function TrimStart(s: string): (r: string)
    ensures |r| <= |s| && r == s[|s| - |r|..]
    ensures |r| > 0 ==> !IsJsWhitespace(r[0])
    ensures forall i :: 0 <= i < |s| - |r| ==> IsJsWhitespace(s[i])
    decreases |s|
  {
    if |s| > 0 && IsJsWhitespace(s[0]) then TrimStart(s[1..]) else s
  }

  /** Strips trailing whitespace: the result is a prefix that ends with a non-blank character, if any. */
  function TrimEnd(s: string): (r: string)
    ensures |r| <= |s| && r == s[..|r|]
    ensures |r| > 0 ==> !IsJsWhitespace(r[|r| - 1])
    ensures forall i :: |r| <= i < |s| ==> IsJsWhitespace(s[i])
    decreases |s|
  {
    if |s| > 0 && IsJsWhitespace(s[|s| - 1]) then TrimEnd(s[..|s| - 1]) else s
  }

  function Trim(s: string): string {
    TrimEnd(TrimStart(s))
  }

  /** A string trims to nothing exactly when every character of it is whitespace. */
  lemma TrimEmptyIffBlank(s: string)
    ensures Trim(s) == "" <==> Blank(s)
  {
  }

  /** `toUpperCase` on one character, for the ASCII letters. */
  function UpperChar(ch: char): (r: char)
    ensures 'a' <= ch <= 'z' ==> r as int == ch as int - 32
    ensures !('a' <= ch <= 'z') ==> r == ch
    ensures !('a' <= r <= 'z')
  {
    if 'a' <= ch <= 'z' then (ch as int - 32) as char else ch
  }

  /** `toUpperCase` on a string, character by character. */
  function ToUpper(s: string): (r: string)
    ensures |r| == |s|
    ensures forall i :: 0 <= i < |s| ==> r[i] == UpperChar(s[i])
  {
    seq(|s|, i requires 0 <= i < |s| => UpperChar(s[i]))
  }

  /** Upper-casing twice is upper-casing once, so a code normalised while typed is unchanged at submit. */
  lemma ToUpperIdempotent(s: string)
    ensures ToUpper(ToUpper(s)) == ToUpper(s)
  {
  }

  /** The input box's `onChange`: the stored code is the typed text, upper-cased. */
  function OnInputChange(typed: string): (r: string)
    ensures |r| == |typed|
    ensures forall i :: 0 <= i < |typed| ==> r[i] == UpperChar(typed[i])
    ensures ToUpper(r) == r
  {
    ToUpper(typed)
  }

  /**
   * `handleJoinRoom`: a code that trims to nothing joins nothing; any other
   * code is passed on upper-cased but not trimmed, so its whitespace stays.
   */
  function HandleJoinRoom(roomCode: string): (r: Option<string>)
    ensures r.None? <==> Blank(roomCode)
    ensures r.Some? ==> |r.value| == |roomCode| && ToUpper(r.value) == r.value
    ensures r.Some? ==> forall i :: 0 <= i < |roomCode| ==> r.value[i] == UpperChar(roomCode[i])
    ensures r.Some? ==> forall i :: 0 <= i < |roomCode| && IsJsWhitespace(roomCode[i]) ==> r.value[i] == roomCode[i]
  {
    TrimEmptyIffBlank(roomCode);
    if Trim(roomCode) == "" then None
    else
      ToUpperIdempotent(roomCode);
      ToUpperKeepsWhitespace(roomCode);
      Some(ToUpper(roomCode))
  }

  /** Upper-casing leaves every whitespace character where it was. */
  lemma ToUpperKeepsWhitespace(s: string)
    ensures forall i :: 0 <= i < |s| && IsJsWhitespace(s[i]) ==> ToUpper(s)[i] == s[i]
  {
  }

  /** The characters a generated code is made of: capital letters and digits. */
  predicate IsCodeChar(ch: char) {
    'A' <= ch <= 'Z' || '0' <= ch <= '9'
  }

  lemma AlphabetIsCodeChars()
    ensures forall k :: 0 <= k < |Alphabet| ==> IsCodeChar(Alphabet[k])
  {
  }

  /** A non-empty code over the alphabet, as `generateRoomCode` makes, is joined exactly as generated. */
  lemma AlphabetCodeJoinsAsIs(code: string)
    requires |code| > 0
    requires forall i :: 0 <= i < |code| ==> code[i] in Alphabet
    ensures OnInputChange(code) == code
    ensures HandleJoinRoom(code) == Some(code)
  {
    AlphabetIsCodeChars();
    assert forall i :: 0 <= i < |code| ==> IsCodeChar(code[i]);
    assert !Blank(code) by {
      assert !IsJsWhitespace(code[0]);
    }
    assert ToUpper(code) == code;
  }
}

=== FILE: room_model.dfy ===
/**
 * The persisted room document: the drawing-command union, the room fields
 * with their defaults, the unique room id, the `lastActivity` refresh on
 * save, the 24-hour expiry, and the upserting `$push` the relay uses to
 * append a command. Time is an abstract integer count of seconds.
 */
module RoomModel {
  import opened Wrappers

  type RoomId = string
  type Time = int

  /** A canvas coordinate pair; treated as opaque integers. */
  datatype Point = Point(x: int, y: int)

  /** The two values the command schema's `type` enum admits. */
  datatype Kind = StrokeKind | ClearKind

  /** A pen-down-to-pen-up gesture: its points in order, colour, width, and the time it started. */
  datatype Stroke = Stroke(path: seq<Point>, color: string, strokeWidth: int, startedAt: Time)

  /**
   * The free-form `data` of a command, which is what `load-drawing` hands to
   * clients: the whole stroke object, or `{ type: 'clear' }`.
   */
  datatype Payload = StrokePayload(stroke: Stroke) | ClearPayload

  /** One element of a room's `drawingData` array. */
  datatype Command = Command(kind: Kind, data: Payload, timestamp: Time)

  datatype Room = Room(roomId: RoomId, createdAt: Time, lastActivity: Time, drawingData: seq<Command>)

  /** The rooms collection, keyed by the unique `roomId`. */
  type Store = map<RoomId, Room>

  /** The TTL index's `expireAfterSeconds`. */
  const ExpireAfterSeconds: int := 86400

  datatype SchemaError = MissingType | NotInEnum(given: string) | MissingData | DuplicateKey(roomId: RoomId)

  /** The enum string of a command kind. */
  function KindName(k: Kind): string {
    match k
    case StrokeKind => "stroke"
    case ClearKind => "clear"
  }

  /**
   * Casts a raw command document to a `Command`: `type` is required and must
   * be one of the enum values, `data` is required, `timestamp` defaults to now.
   */
  function CastCommand(kind: Option<string>, data: Option<Payload>, timestamp: Option<Time>, now: Time): (r: Result<Command, SchemaError>)
    ensures r.Success? <==> kind.Some? && (kind.value == "stroke" || kind.value == "clear") && data.Some?
    ensures r.Success? ==> KindName(r.value.kind) == kind.value && r.value.data == data.value
    ensures r.Success? && timestamp.Some? ==> r.value.timestamp == timestamp.value
    ensures r.Success? && timestamp.None? ==> r.value.timestamp == now
  {
    if kind.None? then Failure(MissingType)
    else if kind.value != "stroke" && kind.value != "clear" then Failure(NotInEnum(kind.value))
    else if data.None? then Failure(MissingData)
    else
      var k := if kind.value == "stroke" then StrokeKind else ClearKind;
      Success(Command(k, data.value, if timestamp.Some? then timestamp.value else now))
  }

  /** Every command that passed the schema cast carries one of exactly two type tags, and casting its own fields returns it unchanged. */
  lemma CastRoundTrip(c: Command, now: Time)
    ensures KindName(c.kind) == "stroke" || KindName(c.kind) == "clear"
    ensures CastCommand(Some(KindName(c.kind)), Some(c.data), Some(c.timestamp), now) == Success(c)
  {
  }

  /** A stored command is tagged by its payload's variant, and a stored stroke has at least two points. */
  predicate CommandOk(cmd: Command) {
    && (cmd.kind == StrokeKind <==> cmd.data.StrokePayload?)
    && (cmd.data.StrokePayload? ==> |cmd.data.stroke.path| > 1)
  }

  /**
   * The command the relay pushes for a finished stroke: the document
   * `{type: 'stroke', data: stroke, timestamp: stroke.timestamp}` as the
   * schema casts it. It is well-formed exactly when the stroke has at least
   * two points, which is the relay's commit condition.
   */
  function StrokeCommand(st: Stroke): (c: Command)
    ensures forall now :: CastCommand(Some("stroke"), Some(StrokePayload(st)), Some(st.startedAt), now) == Success(c)
    ensures CommandOk(c) <==> |st.path| > 1
  {
    Command(StrokeKind, StrokePayload(st), st.startedAt)
  }

  /** The command the relay pushes for `clear-canvas`: `{type: 'clear', data: {type: 'clear'}, timestamp: new Date()}` as cast. */
  function ClearCommand(now: Time): (c: Command)
    ensures CastCommand(Some("clear"), Some(ClearPayload), Some(now), now) == Success(c)
    ensures CommandOk(c)
  {
    Command(ClearKind, ClearPayload, now)
  }

  /** JavaScript's `!roomId` for a room id that may be absent: missing, or the empty string. */
  predicate Falsy(roomId: Option<RoomId>) {
    roomId.None? || roomId.value == ""
  }

  /** A new room document: `createdAt` and `lastActivity` default to now. */
  function NewRoom(roomId: RoomId, drawingData: seq<Command>, now: Time): (r: Room)
    ensures r.roomId == roomId && r.drawingData == drawingData
    ensures r.createdAt == now && r.lastActivity == now
  {
    Room(roomId, now, now, drawingData)
  }

  /** The store is keyed by each room's own id, so a room id names at most one room. */
  predicate Keyed(store: Store) {
    forall id :: id in store ==> store[id].roomId == id
  }

  /** Two rooms of a keyed store with the same id are the same room. */
  lemma AtMostOneRoomPerId(store: Store, a: Room, b: Room)
    requires Keyed(store)
    requires a in store.Values && b in store.Values && a.roomId == b.roomId
    ensures a == b
  {
    var ka :| ka in store && store[ka] == a;
    var kb :| kb in store && store[kb] == b;
    assert ka == a.roomId && kb == b.roomId;
  }

  /** The command log of a room; a room with no document has an empty log. */
  function LogOf(store: Store, roomId: RoomId): seq<Command> {
    if roomId in store then store[roomId].drawingData else []
  }

  /**
   * `room.save()` of a document not yet stored: the unique index refuses a
   * second room with the same id; otherwise the pre-save hook stamps
   * `lastActivity` with now.
   */
  function Insert(store: Store, room: Room, now: Time): (r: Result<Store, SchemaError>)
    ensures room.roomId in store <==> r == Failure(DuplicateKey(room.roomId))
    ensures r.Success? ==> r.value.Keys == store.Keys + {room.roomId}
    ensures r.Success? ==> r.value[room.roomId] == room.(lastActivity := now)
    ensures r.Success? ==> forall id :: id in store ==> r.value[id] == store[id]
    ensures r.Success? && Keyed(store) ==> Keyed(r.value)
  {
    if room.roomId in store then Failure(DuplicateKey(room.roomId))
    else Success(store[room.roomId := room.(lastActivity := now)])
  }

  /**
   * `room.save()` of a document already stored, after the caller changed it:
   * the pre-save hook stamps `lastActivity` with now; no other room changes.
   */
  function Resave(store: Store, room: Room, now: Time): (r: Store)
    requires room.roomId in store
    ensures r.Keys == store.Keys
    ensures r[room.roomId] == room.(lastActivity := now)
    ensures forall id :: id in store && id != room.roomId ==> r[id] == store[id]
    ensures Keyed(store) ==> Keyed(r)
  {
    store[room.roomId := room.(lastActivity := now)]
  }

  /**
   * `findOneAndUpdate({roomId}, {$push: {drawingData: cmd}}, {upsert: true})`:
   * appends to an existing room without running the pre-save hook, so
   * `lastActivity` is left as it was; inserts a fresh room holding just the
   * command when none exists.
   */
  function PushCommand(store: Store, roomId: RoomId, cmd: Command, now: Time): (r: Store)
    ensures r.Keys == store.Keys + {roomId}
    ensures LogOf(r, roomId) == LogOf(store, roomId) + [cmd]
    ensures roomId in store ==> r[roomId].createdAt == store[roomId].createdAt && r[roomId].lastActivity == store[roomId].lastActivity
    ensures roomId !in store ==> r[roomId].createdAt == now && r[roomId].lastActivity == now
    ensures forall id :: id in store && id != roomId ==> r[id] == store[id]
    ensures Keyed(store) ==> Keyed(r)
  {
    if roomId in store then
      store[roomId := store[roomId].(drawingData := store[roomId].drawingData + [cmd])]
    else
      store[roomId := NewRoom(roomId, [cmd], now)]
  }

  /** The TTL monitor may delete a room once `lastActivity` lies more than `expireAfterSeconds` in the past. */
  predicate Expired(room: Room, now: Time) {
    now - room.lastActivity > ExpireAfterSeconds
  }

  /** One sweep of the TTL monitor: every expired room goes, every other room stays untouched. */
  function Evict(store: Store, now: Time): (r: Store)
    ensures forall id :: id in r <==> id in store && !Expired(store[id], now)
    ensures forall id :: id in r ==> r[id] == store[id]
    ensures Keyed(store) ==> Keyed(r)
  {
    map id | id in store && !Expired(store[id], now) :: store[id]
  }

  /** A room saved at time `t` survives every sweep up to and including `t + 86400`, and none after. */
  lemma SavedRoomLivesOneDay(store: Store, room: Room, t: Time, now: Time)
    requires room.roomId in store
    ensures t <= now <= t + ExpireAfterSeconds ==> room.roomId in Evict(Resave(store, room, t), now)
    ensures now > t + ExpireAfterSeconds ==> room.roomId !in Evict(Resave(store, room, t), now)
  {
  }
}

=== FILE: room_routes.dfy ===
/**
 * The room HTTP routes: `POST /join` finds or creates a room, `GET /:roomId`
 * looks one up. Each request is a function of the store; `storageUp` says
 * whether the database answered, and a `false` there is the route's catch
 * block.
 */
module RoomRoutes {
  import opened Wrappers
  import opened RoomModel

  datatype Response =
    | Joined(roomId: RoomId, createdAt: Time, drawingData: seq<Command>)
    | Found(roomId: RoomId, createdAt: Time, lastActivity: Time, drawingData: seq<Command>)
    | HttpError(status: int, error: string)

  /** A request outcome: the store afterwards and the reply. */
  datatype Exchange = Exchange(store: Store, response: Response)

  /** `POST /join`. */
  function JoinRoom(store: Store, roomId: Option<RoomId>, now: Time, storageUp: bool): (r: Exchange)
    requires Keyed(store)
    ensures Falsy(roomId) ==> r == Exchange(store, HttpError(400, "Room ID is required"))
    ensures !Falsy(roomId) && !storageUp ==> r == Exchange(store, HttpError(500, "Failed to join room"))
    ensures !Falsy(roomId) && storageUp ==>
      var id := roomId.value;
      && id in r.store
      && r.response == Joined(id, r.store[id].createdAt, LogOf(store, id))
      && r.store.Keys == store.Keys + {id}
      && LogOf(r.store, id) == LogOf(store, id)
      && r.store[id].lastActivity == now
      && r.store[id].createdAt == (if id in store then store[id].createdAt else now)
      && (forall other :: other in store && other != id ==> r.store[other] == store[other])
    ensures Keyed(r.store)
  {
    if Falsy(roomId) then Exchange(store, HttpError(400, "Room ID is required"))
    else if !storageUp then Exchange(store, HttpError(500, "Failed to join room"))
    else
      var id := roomId.value;
      if id !in store then
        var room := NewRoom(id, [], now);
        match Insert(store, room, now)
        case Success(saved) => Exchange(saved, Joined(room.roomId, room.createdAt, room.drawingData))
        case Failure(_) => Exchange(store, HttpError(500, "Failed to join room"))
      else
        var room := store[id].(lastActivity := now);
        Exchange(Resave(store, room, now), Joined(room.roomId, room.createdAt, room.drawingData))
  }

  /** `GET /:roomId`: a read; the store is not an output, so it cannot change. */
  function GetRoom(store: Store, roomId: RoomId, storageUp: bool): (r: Response)
    requires Keyed(store)
    ensures !storageUp ==> r == HttpError(500, "Failed to fetch room")
    ensures storageUp && roomId !in store ==> r == HttpError(404, "Room not found")
    ensures storageUp && roomId in store ==>
      r == Found(roomId, store[roomId].createdAt, store[roomId].lastActivity, store[roomId].drawingData)
  {
    if !storageUp then HttpError(500, "Failed to fetch room")
    else if roomId !in store then HttpError(404, "Room not found")
    else
      var room := store[roomId];
      Found(room.roomId, room.createdAt, room.lastActivity, room.drawingData)
  }

  /**
   * Joining twice returns the same commands and the same creation time; only
   * `lastActivity` moves.
   */
  lemma RepeatedJoinSameRoom(store: Store, id: RoomId, t1: Time, t2: Time)
    requires Keyed(store) && id != ""
    ensures
      var first := JoinRoom(store, Some(id), t1, true);
      var second := JoinRoom(first.store, Some(id), t2, true);
      && second.response == first.response
      && second.store[id] == first.store[id].(lastActivity := t2)
  {
  }

  /** After a successful join, looking the room up succeeds and shows the join's time as its last activity. */
  lemma JoinThenGet(store: Store, id: RoomId, now: Time)
    requires Keyed(store) && id != ""
    ensures
      var joined := JoinRoom(store, Some(id), now, true);
      GetRoom(joined.store, id, true) == Found(id, joined.response.createdAt, now, joined.response.drawingData)
  {
  }
}

=== FILE: session.dfy ===
/**
 * The whiteboard page's session state on the client: the connection flag,
 * the member list shown in the header, and the map of other users' cursors,
 * updated by the socket's events; plus the two local actions that talk to
 * the socket, reporting the cursor and leaving the room.
 */
module Session {
  import opened Wrappers
  import opened RoomModel

  type UserId = string

  datatype Client = Client(connected: bool, users: seq<UserId>, cursors: map<UserId, Point>)

  /** Events the page's socket listens for. */
  datatype SocketEvent =
    | Connect
    | Reconnect
    | Disconnected
    | ConnectError
    | RoomUsersIn(users: seq<UserId>)
    | CursorMoveIn(userId: UserId, position: Point)
    | UserLeftIn(userId: UserId)

  /** What the page does towards the server or the app. */
  datatype ClientEmit = EmitJoinRoom(roomId: RoomId) | EmitCursorMove(roomId: RoomId, position: Point) | EmitLeaveRoom(roomId: RoomId) | CloseSocket | BackToLobby

  datatype Reaction = Reaction(client: Client, emitted: seq<ClientEmit>)

  /** The number shown as "online". */
  function UserCount(cl: Client): nat {
    |cl.users|
  }

  /**
   * The socket listeners: connect and reconnect mark the page connected and
   * (re)join the room; disconnect and a connection error mark it
   * disconnected; `room-users` replaces the member list; `cursor-move` sets
   * one user's cursor; `user-left` removes one.
   */
  function OnSocketEvent(cl: Client, roomId: RoomId, e: SocketEvent): (r: Reaction)
    ensures (e.Connect? || e.Reconnect?) ==> r.client.connected && r.emitted == [EmitJoinRoom(roomId)]
    ensures (e.Disconnected? || e.ConnectError?) ==> !r.client.connected
    ensures !(e.Connect? || e.Reconnect? || e.Disconnected? || e.ConnectError?) ==> r.client.connected == cl.connected
    ensures !(e.Connect? || e.Reconnect?) ==> r.emitted == []
    ensures e.RoomUsersIn? ==> r.client.users == e.users && UserCount(r.client) == |e.users|
    ensures !e.RoomUsersIn? ==> r.client.users == cl.users
    ensures e.CursorMoveIn? ==> e.userId in r.client.cursors && r.client.cursors[e.userId] == e.position
    ensures e.UserLeftIn? ==> e.userId !in r.client.cursors
    ensures forall u :: !((e.CursorMoveIn? || e.UserLeftIn?) && u == e.userId) ==>
      (u in r.client.cursors <==> u in cl.cursors) && (u in cl.cursors ==> r.client.cursors[u] == cl.cursors[u])
  {
    match e
    case Connect => Reaction(cl.(connected := true), [EmitJoinRoom(roomId)])
    case Reconnect => Reaction(cl.(connected := true), [EmitJoinRoom(roomId)])
    case Disconnected => Reaction(cl.(connected := false), [])
    case ConnectError => Reaction(cl.(connected := false), [])
    case RoomUsersIn(users) => Reaction(cl.(users := users), [])
    case CursorMoveIn(u, p) => Reaction(cl.(cursors := cl.cursors[u := p]), [])
    case UserLeftIn(u) => Reaction(cl.(cursors := cl.cursors - {u}), [])
  }

  /** `handleCursorMove`: reports the position only with a socket that is connected. */
  function OnLocalCursor(cl: Client, hasSocket: bool, roomId: RoomId, position: Point): (r: seq<ClientEmit>)
    ensures |r| > 0 <==> hasSocket && cl.connected
    ensures |r| > 0 ==> r == [EmitCursorMove(roomId, position)]
  {
    if hasSocket && cl.connected then [EmitCursorMove(roomId, position)] else []
  }

  /** `handleLeaveRoom`: with a socket, sends `leave-room` and then disconnects; in every case returns to the lobby. */
  function OnLeaveRoom(hasSocket: bool, roomId: RoomId): (r: seq<ClientEmit>)
    ensures |r| > 0 && r[|r| - 1] == BackToLobby
    ensures hasSocket ==> r == [EmitLeaveRoom(roomId), CloseSocket, BackToLobby]
    ensures !hasSocket ==> r == [BackToLobby]
  {
    (if hasSocket then [EmitLeaveRoom(roomId), CloseSocket] else []) + [BackToLobby]
  }

  /** Applies the socket events in order. */
  function SessionRun(cl: Client, roomId: RoomId, trace: seq<SocketEvent>): Reaction
    decreases |trace|
  {
    if |trace| == 0 then Reaction(cl, [])
    else
      var before := SessionRun(cl, roomId, trace[..|trace| - 1]);
      var last := OnSocketEvent(before.client, roomId, trace[|trace| - 1]);
      Reaction(last.client, before.emitted + last.emitted)
  }

  /**
   * Independent reading of the cursor map: a user's cursor is the position of
   * their most recent `cursor-move`, unless a `user-left` for them came later;
   * with neither, it is what the map held at the start.
   */
  function LastCursor(start: map<UserId, Point>, trace: seq<SocketEvent>, u: UserId): Option<Point>
    decreases |trace|
  {
    if |trace| == 0 then (if u in start then Some(start[u]) else None)
    else
      var e := trace[|trace| - 1];
      if e.CursorMoveIn? && e.userId == u then Some(e.position)
      else if e.UserLeftIn? && e.userId == u then None
      else LastCursor(start, trace[..|trace| - 1], u)
  }

  /** After any sequence of socket events, the cursor map agrees with the last report for every user. */
  lemma {:induction false} CursorsFollowLastReport(cl: Client, roomId: RoomId, trace: seq<SocketEvent>, u: UserId)
    ensures
      var final := SessionRun(cl, roomId, trace).client;
      && (u in final.cursors <==> LastCursor(cl.cursors, trace, u).Some?)
      && (u in final.cursors ==> final.cursors[u] == LastCursor(cl.cursors, trace, u).value)
    decreases |trace|
  {
    if |trace| > 0 {
      CursorsFollowLastReport(cl, roomId, trace[..|trace| - 1], u);
    }
  }

  /**
   * Independent reading of the connection flag: true after the latest connect
   * or reconnect, false after the latest disconnect or connection error; with
   * neither, the flag at the start.
   */
  function LastStatus(start: bool, trace: seq<SocketEvent>): bool
    decreases |trace|
  {
    if |trace| == 0 then start
    else
      var e := trace[|trace| - 1];
      if e.Connect? || e.Reconnect? then true
      else if e.Disconnected? || e.ConnectError? then false
      else LastStatus(start, trace[..|trace| - 1])
  }

  /** After any sequence of socket events, the page's flag is the latest connection status. */
  lemma {:induction false} ConnectedFollowsLastStatus(cl: Client, roomId: RoomId, trace: seq<SocketEvent>)
    ensures SessionRun(cl, roomId, trace).client.connected == LastStatus(cl.connected, trace)
    decreases |trace|
  {
    if |trace| > 0 {
      ConnectedFollowsLastStatus(cl, roomId, trace[..|trace| - 1]);
    }
  }

  /**
   * After any sequence of socket events, a local cursor position is sent
   * exactly when there is a socket and the latest connection status is up.
   */
  lemma {:induction false} CursorSentIffLastStatusUp(cl: Client, roomId: RoomId, trace: seq<SocketEvent>, hasSocket: bool, position: Point)
    ensures |OnLocalCursor(SessionRun(cl, roomId, trace).client, hasSocket, roomId, position)| > 0
        <==> hasSocket && LastStatus(cl.connected, trace)
  {
    ConnectedFollowsLastStatus(cl, roomId, trace);
  }

  /** How many connects and reconnects the trace holds. */
  function Connects(trace: seq<SocketEvent>): nat
    decreases |trace|
  {
    if |trace| == 0 then 0
    else Connects(trace[..|trace| - 1]) + (if trace[|trace| - 1].Connect? || trace[|trace| - 1].Reconnect? then 1 else 0)
  }

  /** The page sends exactly one `join-room` for this room per connect or reconnect, and nothing else. */
  lemma {:induction false} JoinOnEveryConnect(cl: Client, roomId: RoomId, trace: seq<SocketEvent>)
    ensures
      var out := SessionRun(cl, roomId, trace).emitted;
      && |out| == Connects(trace)
      && forall i :: 0 <= i < |out| ==> out[i] == EmitJoinRoom(roomId)
    decreases |trace|
  {
    if |trace| > 0 {
      JoinOnEveryConnect(cl, roomId, trace[..|trace| - 1]);
    }
  }
}

=== FILE: wrappers.dfy ===
/** Optional values and success-or-error results, shared by the whole model. */
module Wrappers {

  /** A value that may be absent: JavaScript's `undefined`/`null` on one side. */
  datatype Option<+T> = None | Some(value: T)

  /** The outcome of an operation that can fail with an error of type `E`. */
  datatype Result<+R, +E> = Success(value: R) | Failure(error: E)
}
